=== FILE: README.md ===
# p2p: a Dafny model of the peer directory, handshake and chat relay

`p2p` is a small peer-to-peer chat program in Rust. Each node has a random
version-4 UUID, a control address and a chat address, and keeps a directory of
the peers it knows in a JSON file. Nodes discover each other by handshake: the
client sends a `Ping`, the server answers with a `Pong`, and each side files
the other as online and saves its directory. The chat relay reads lines from
the terminal, sends them to every known peer's chat address, takes in the
messages other peers send, and shows a bounded, newest-first history.

This project models that core as pure Dafny functions over immutable data, and
proves what the code promises about it:

| module | file | models |
|---|---|---|
| `Crypto` | `crypto.dfy` | `src/crypto/uuid.rs`: generating a v4 id, its text form, and the lenient parser |
| `Io` | `io.dfy` | socket addresses and the error kinds of I/O outcomes |
| `Serde` | `serde.dfy` | a byte syntax (`Codec`) and the laws a lawful one keeps |
| `Wire` | `wire.dfy` | `src/rpc/request.rs`: `Ping`, `Pong`, `Message`, the tagged `Request`, `read_req`, `write_req` |
| `PeerRecord` | `peer.dfy` | `src/peer/mod.rs`: `Peer` and `Status` |
| `Directory` | `directory.dfy` | `src/peer/info.rs`: `PeerInfo`, `peer_or_insert`, `load`, `save` |
| `Server` | `server.dfy` | `src/rpc/server.rs`: the per-connection ping loop and `handle_ping` |
| `Client` | `client.dfy` | `src/rpc/client.rs`: `connect` |
| `Chat` | `chat.dfy` | `src/rpc/chat.rs`: the relay queue, input fan-out, renderer and listener |
| `Cli` | `cli.dfy` | `src/main.rs`: `format_duration_ago` and the "never" rule of the peer listing |

How the outside world appears in the model:

- Every socket, file and terminal operation is an input: an `IoOutcome`
  (`Done` or `Failed(kind)`), a `RawRead` (the bytes one `read` returned, or a
  failure), or an `Fs` record saying how `create_dir_all` and `write` end.
- JSON is two layers. The structure serde derives is modelled exactly: a
  request is a map from field names to values, tagged by `"method"`. The byte
  syntax serde_json produces is a `Codec` parameter. Round-trip results assume
  the codec is `Lawful`: encodings are non-empty, decoding an encoding gives the
  value back, and no proper prefix of an encoding decodes. serde_json's output
  ends in a closing brace, so it has that property.
- `SystemTime::now()` is a `Time` input in whole seconds. `rand::random()` is
  a 16-byte input. `process::exit(1)` is an `Abort` outcome.
- Tasks and locks are not modelled. Each `handle_ping` holds the directory mutex
  from start to end, so any interleaving of connections is a sequence of
  atomic steps. `Server.Serve` folds such a sequence. The chat queue is a
  bounded sequence, and a send to a full queue is the sender suspending.

The code differs from a plain reading of the design in these places. The
model follows the code.

- Parsing is lenient. Segment widths are not checked, a leading `+` and
  upper-case digits are accepted, and a last segment wider than 12 digits loses
  its high bytes (`Crypto.ParseAnyWidth`, `Crypto.ParseTruncatesLastGroup`).
- `Status::default()` is `Online`, while `Peer::new` creates peers `Offline`.
- After a failed `Pong` write, `handle_ping` returns but the connection's loop
  keeps reading. A read that fails, returns nothing, or is not a `Ping` is
  skipped, and the loop goes on.
- A node can record its own id as a peer if a `Ping` carries it
  (`Server.OwnIdCanBecomePeer`).
- Input lines are only trimmed. A blank line still produces a `Message` with
  empty text.
- The newest history line is drawn on row `max_height - 1`, just above the
  prompt. Older lines are drawn higher up.
- The chat listener serves accepted connections one after another. It does not
  spawn a task per connection.

## Model

| member | source | states |
|---|---|---|
| `Crypto.NewV4` | src/crypto/uuid.rs:57-62 | the id has version nibble 4 in byte 6 and variant bits `10` in byte 8; the low bits of those two bytes and all fourteen other bytes are the random input's |
| `Crypto.MaskArithmetic` | src/crypto/uuid.rs:59-60 | `(x & 0x0f) \| 0x40` and `(x & 0x3f) \| 0x80` keep the low 4 and 6 bits and put `0100` and `10` in the high bits |
| `Crypto.MasksAreVersionAndVariant` | src/crypto/uuid.rs:59-60 | the version and variant bytes of a new id are exactly those two masks applied to the random bytes |
| `Crypto.Format` | src/crypto/uuid.rs:65-78 | the text is 36 characters with hyphens exactly at positions 8, 13, 18 and 23, and every other character is a lower-case hex digit |
| `Crypto.GroupsLittleEndian` | src/crypto/uuid.rs:71-75 | the five printed groups are the little-endian values of bytes 0..4, 4..6, 6..8, 8..10 and 10..16 |
| `Crypto.FormatGroupValues` | src/crypto/uuid.rs:70-75 | each hyphen-delimited slice of the text is hex whose value is its group, zero-padded to 8, 4, 4, 4 and 12 digits |
| `Crypto.HexFixedValue` | src/crypto/uuid.rs:70 | zero-padded hex of a value that fits the width reads back as that value |
| `Crypto.LeBytesOfValue` | src/crypto/uuid.rs:95-119 | laying out the little-endian value of n bytes in n bytes gives the same bytes |
| `Crypto.SplitCount` | src/crypto/uuid.rs:90 | splitting on `-` yields one more segment than there are hyphens |
| `Crypto.SplitJoin` | src/crypto/uuid.rs:90 | joining the segments with `-` gives the text back, and no segment contains `-` |
| `Crypto.ParseUnsigned` | src/crypto/uuid.rs:96-97 | a segment is accepted exactly when, after at most one leading `+`, it is a non-empty run of hex digits of either case whose value is below the target type's bound, and the result is that value |
| `Crypto.ParseUnsignedRejectsOverRange` | src/crypto/uuid.rs:96-117 | zero-padded hex of a value at or above the type's bound is rejected |
| `Crypto.ParseUnsignedPlusSign` | src/crypto/uuid.rs:96-97 | one leading `+` before a segment changes nothing |
| `Crypto.ParseUnsignedUpperCase` | src/crypto/uuid.rs:96-97 | upper-case hex digits read the same as lower-case ones |
| `Crypto.ParseUnsignedHexFixed` | src/crypto/uuid.rs:96-117 | zero-padded hex of a value below the type's bound is accepted with that value |
| `Crypto.Parse` | src/crypto/uuid.rs:89-121 | a text parses only if it has exactly four hyphens |
| `Crypto.ParseFormat` | src/crypto/uuid.rs:65-121 | parsing the text form of any id gives that id back |
| `Crypto.FormatInjective` | src/crypto/uuid.rs:65-78 | two ids with the same text form are the same id |
| `Crypto.ParseRejectsForeignChar` | src/crypto/uuid.rs:95-119 | a text holding any character that is not `-`, `+` or a hex digit of either case fails with `ParseError` |
| `Crypto.ParseRejectsEmptySegment` | src/crypto/uuid.rs:90-119 | a text with an empty segment (a leading, trailing or doubled hyphen) fails with `ParseError` |
| `Crypto.ParseAnyWidth` | src/crypto/uuid.rs:90-120 | any five hyphen-free segments accepted as `u32`, `u16`, `u16`, `u16` and `u64` parse, whatever their widths, to the id laid out from their values |
| `Crypto.ParseTruncatesLastGroup` | src/crypto/uuid.rs:115-119 | a 13-digit last segment with bit 48 set parses to the same id as the canonical text, so distinct texts can name one id |
| `Crypto.ParseUuid` | src/crypto/uuid.rs:36-45 | deserializing a `Uuid` from a string succeeds exactly when the v4 parse does, and gives the v4 id that parse produced |
| `Crypto.UuidTextRoundTrip` | src/crypto/uuid.rs:17-45 | deserializing the serialized string of any `Uuid` gives it back |
| `Crypto.UuidText` | src/crypto/uuid.rs:17-34 | the serialized string is 36 characters, hyphens at 8, 13, 18 and 23, lower-case hex digits everywhere else |
| `Crypto.UuidTextInjective` | src/crypto/uuid.rs:17-34 | two `Uuid`s that serialize to the same string are equal |
| `PeerRecord.DefaultStatus` | src/peer/mod.rs:35-44 | the default status is the one named `"online"` |
| `PeerRecord.ParseStatus` | src/peer/mod.rs:39-44 | a status read from text is one whose name is that text |
| `PeerRecord.StatusName` | src/peer/mod.rs:46-53 | the name is `online` or `offline`, and `online` exactly for `Online` |
| `PeerRecord.StatusNameRoundTrip` | src/peer/mod.rs:35-53 | `"online"` and `"offline"` read back as the status they name |
| `PeerRecord.NewPeer` | src/peer/mod.rs:19-33 | a new peer has the given id and addresses, is `Offline`, has never been seen, and its status and timestamp agree |
| `PeerRecord.MarkSeen` | src/rpc/server.rs:39-40 | a seen peer is `Online` with the given time as last seen, keeps its id and addresses, and its status and timestamp agree |
| `Directory.NewInfo` | src/peer/info.rs:22-34 | a new directory has no peers, the given addresses and path, and the version-4 id made from the given random bytes |
| `Directory.PeerOrInsert` | src/peer/info.rs:77-89 | the key set grows by the id alone; the node's own fields and all other peers are unchanged; a new entry is `Peer::new` of the defaults |
| `Directory.PeerOrInsertIdempotent` | src/peer/info.rs:77-89 | a second call with the same id, whatever its defaults, changes nothing and returns the same entry |
| `Directory.PeerOrInsertKnown` | src/peer/info.rs:88 | for a known id, the directory is unchanged and the stored peer is returned |
| `Directory.PeerOrInsertKeepsInvariants` | src/peer/info.rs:77-89 | every peer stays filed under its own id, and status `Online` stays equivalent to having a last-seen time |
| `Directory.Touch` | src/rpc/server.rs:38-40 | after a handshake the peer is present, `Online`, and last seen at the given time |
| `Directory.TouchEffect` | src/rpc/server.rs:38-40 | a handshake adds only that id; other peers and the node's own fields are unchanged; a known peer keeps its addresses; a new one gets those offered |
| `Directory.TouchKeepsInvariants` | src/rpc/server.rs:38-40 | a handshake keeps every peer under its own id and its status in agreement with its timestamp |
| `Directory.Load` | src/peer/info.rs:43-52 | `FileNotFound` exactly for a missing file, `ReadError` exactly for other read failures, `InvalidData` exactly for text that does not decode; readable text that decodes loads as the decoded directory, and any success is that directory |
| `Directory.Save` | src/peer/info.rs:63-74 | a save fails only with `WriteError` or `InvalidData`; on success the last call writes the serialization of the given directory; an `InvalidData` failure writes nothing |
| `Directory.SaveCreatesDirsFirst` | src/peer/info.rs:64-66 | with a parent directory, creating it is the first call; the write is always the last; a failed creation stops the save with `WriteError` |
| `Directory.SaveErrors` | src/peer/info.rs:63-74 | `InvalidData` exactly when serialization fails; `WriteError` exactly when directory creation or the write fails |
| `Directory.SaveLoadRoundTrip` | src/peer/info.rs:43-74 | loading the text a successful save wrote gives back the saved directory |
| `Wire.ToDoc` | src/rpc/request.rs:66-75 | every request is tagged under `"method"` with its variant's name and carries `peer_id` as a string |
| `Wire.FromDoc` | src/rpc/request.rs:66-75 | a request read from a field map has the tag that map carries |
| `Wire.FromDocPing` | src/rpc/request.rs:66-82 | a map reads as a given Ping exactly when its tag is `ping` and its `peer_id`, `peer_addr` and `peer_chat_addr` fields are present, well typed and hold that Ping's values |
| `Wire.FromDocPong` | src/rpc/request.rs:105-108 | a map reads as a given Pong exactly when its tag is `pong` and its `peer_id` and `peer_chat_addr` fields hold that Pong's values |
| `Wire.FromDocMessage` | src/rpc/request.rs:127-130 | a map reads as a given Message exactly when its tag is `message` and its `peer_id` and `text` fields hold that Message's values |
| `Wire.FromDocNeedsFields` | src/rpc/request.rs:66-130 | under each known tag, a map is read exactly when every field that variant declares is present and well typed; one missing or ill-typed field rejects it |
| `Wire.TagsDistinct` | src/rpc/request.rs:69-74 | two requests have the same tag exactly when they are the same variant |
| `Wire.IdFieldOfText` | src/crypto/uuid.rs:25-45 | a `peer_id` field holding an id's text reads as that id |
| `Wire.DocRoundTrip` | src/rpc/request.rs:66-146 | reading the field map of any request gives that request back |
| `Wire.FromDocIgnoresUnknownFields` | src/rpc/request.rs:77-130 | fields a request type does not declare do not change what is read |
| `Wire.UnknownTagRejected` | src/rpc/request.rs:67-75 | a map tagged with anything but `ping`, `pong` or `message` is not a request |
| `Wire.ReadReq` | src/rpc/request.rs:39-45 | a failed read passes its error on; zero bytes is `ConnectionAborted`; otherwise the result is `InvalidData` exactly when the first `cap` bytes do not decode to a request, and a frame that decodes gives `Ok` with exactly that request |
| `Wire.EmptyReadAborts` | src/rpc/request.rs:41-42 | a read of zero bytes fails with `ConnectionAborted` |
| `Wire.ReadSeesOnlyCap` | src/rpc/request.rs:39-43 | only the first `cap` bytes of what arrives decide the result |
| `Wire.WriteReq` | src/rpc/request.rs:58-63 | a write is `Ok` with the encoding exactly when serialization succeeds and the stream takes the bytes; a serialization failure is `InvalidData` and nothing is written; a failed write passes its own error kind on |
| `Wire.WireRoundTrip` | src/rpc/request.rs:39-63 | bytes written for a request that fit the buffer read back as that request |
| `Wire.OversizedRequestInvalid` | src/rpc/request.rs:16-18 | a request whose encoding exceeds the buffer is truncated and read as `InvalidData` |
| `Server.PongFor` | src/rpc/server.rs:33 | the reply carries the server's own id and chat address |
| `Server.HandlePing` | src/rpc/server.rs:31-45 | the reply is always the server's Pong; if writing it fails the directory is untouched and not saved; otherwise the requester is recorded and the updated directory is what gets saved |
| `Server.HandshakeRecordsRequester` | src/rpc/server.rs:38-40 | after a delivered Pong the requester is `Online` and last seen now; a new one gets the Ping's addresses; a known one keeps its own; other peers are unchanged |
| `Server.SaveFailureNotFatal` | src/rpc/server.rs:42-44 | how the save ends does not change the directory the server continues with |
| `Server.OwnIdCanBecomePeer` | src/rpc/server.rs:38 | a Ping carrying the server's own id files the server as its own peer |
| `Server.Step` | src/rpc/server.rs:24-29 | one read keeps the node's own fields, never removes a peer, and changes nothing unless it decoded to a Ping; a Ping is handled by `handle_ping`, so the requester is touched when the Pong is delivered and nothing changes when it is not |
| `Server.Serve` | src/rpc/server.rs:18-29 | after any sequence of reads the node's own fields are unchanged and no peer has been removed |
| `Server.ServeSkipsNonPings` | src/rpc/server.rs:26 | serving a sequence of reads is serving only its Pings |
| `Server.MalformedPayloadHarmless` | src/rpc/server.rs:26 | a read whose bytes do not decode leaves the directory as it was |
| `Server.ServeKeepsInvariants` | src/rpc/server.rs:18-45 | serving keeps every peer under its own id and its status in agreement with its timestamp |
| `Client.PingFor` | src/rpc/client.rs:21 | the Ping carries the client's own id, control address and chat address |
| `Client.Classify` | src/rpc/client.rs:27-41 | the reply is accepted exactly when it decoded to a Pong |
| `Client.Connect` | src/rpc/client.rs:11-57 | an unreachable address aborts before anything is sent; otherwise the client's Ping is offered; success means the reply was a Pong, and the result is the client's directory with only the responder touched, which is also the directory that was saved |
| `Client.ConnectSucceedsIff` | src/rpc/client.rs:15-54 | the handshake succeeds exactly when the connect, the Ping write, a Pong reply and the save all succeed |
| `Client.ReplyFailures` | src/rpc/client.rs:27-41 | a non-Pong reply, an aborted connection and any other read failure each end with their own abort reason |
| `Client.PongRecordsResponder` | src/rpc/client.rs:43-49 | on success the path is kept and the only key added is the responder's; the responder is `Online` and last seen now; a new one is filed at the dialled address and the Pong's chat address; other peers are unchanged |
| `Client.ConnectKeepsInvariants` | src/rpc/client.rs:43-49 | a successful handshake keeps every peer under its own id and its status in agreement with its timestamp |
| `Client.HandshakeEndToEnd` | src/rpc/client.rs:21-54 | when the server's Pong fits one read and the save succeeds, the client files the server, unknown until then, as an online peer at the dialled address |
| `Chat.Publish` | src/rpc/chat.rs:33 | a send to a full queue suspends with the queue unchanged; otherwise the message is appended after all queued ones |
| `Chat.PublishBounded` | src/rpc/chat.rs:13 | the queue never holds more than 32 messages |
| `Chat.Take` | src/rpc/chat.rs:56 | a receive on an empty queue waits; otherwise it takes the oldest message and leaves the rest in order |
| `Chat.FirstInFirstOut` | src/rpc/chat.rs:56 | a message published later does not overtake the oldest one |
| `Chat.Trim` | src/rpc/chat.rs:32 | the trimmed line is empty or begins and ends with a non-whitespace character |
| `Chat.TrimShape` | src/rpc/chat.rs:32 | the trimmed line is one slice of the input, and everything before and after it is whitespace |
| `Chat.TrimIdempotent` | src/rpc/chat.rs:32 | trimming twice is trimming once |
| `Chat.InputMessage` | src/rpc/chat.rs:32 | the Message carries the local id and the trimmed line, and a whitespace-only line gives empty text |
| `Chat.OpenStreams` | src/rpc/chat.rs:22-26 | streams are held to exactly the known peers whose own connect succeeded; each peer is dialled once, under its own id |
| `Chat.Delivered` | src/rpc/chat.rs:35-37 | every stream reached is one of the streams and its own write succeeded |
| `Chat.DeliveredExactly` | src/rpc/chat.rs:35-37 | a stream is reached exactly when its own write succeeds, whatever happens to the others |
| `Chat.FanOut` | src/rpc/chat.rs:35-37 | every stream is written to, in order, and the reached ones are those whose write succeeded |
| `Chat.HandleLine` | src/rpc/chat.rs:30-38 | a failed `read_line` stops the reader; a full queue suspends it; otherwise the trimmed Message is queued first, then written to every open stream, and reaches exactly the known peers whose connect at startup succeeded and whose own write succeeds |
| `Chat.HistoryLine` | src/rpc/chat.rs:57 | the line is the 36-character sender id, `": "`, and the text |
| `Chat.PushLine` | src/rpc/chat.rs:57-60 | the new line goes to the front, the previous lines follow in order, and the history never grows past `max_height - 2` |
| `Chat.NoRoomNoHistory` | src/rpc/chat.rs:58-60 | on a two-row terminal no line is kept |
| `Chat.Center` | src/rpc/chat.rs:52 | the title is centred in the terminal width, the odd space to the right, and a wider title is left as it is |
| `Chat.Repaint` | src/rpc/chat.rs:52-66 | a repaint draws each history line on its row, then the title on row 1 and the prompt on the bottom row |
| `Chat.RepaintRowsDistinct` | src/rpc/chat.rs:63-66 | history rows lie between the title and the prompt and rise with age, so no two draws share a row |
| `Chat.RenderStep` | src/rpc/chat.rs:56-60 | the renderer waits on an empty queue; otherwise it takes the oldest message, its line becomes the newest history line, the older lines follow in their order, and the history grows by one until it holds `max_height - 2` lines and keeps that length afterwards |
| `Chat.Forward` | src/rpc/chat.rs:76-79 | a connection forwards, in order, the Messages it reads, up to the first read that is not a Message |
| `Chat.MessageOf` | src/rpc/chat.rs:77 | a read counts as a Message exactly when `read_req` returns a `Message`, and then it is that Message |
| `Chat.ForwardStopsAtFirstNonMessage` | src/rpc/chat.rs:77 | reads after the first non-Message on a connection are never looked at |
| `Chat.ListenStopsAtFailedAccept` | src/rpc/chat.rs:75 | a failed accept ends the listener, and later connections are never served |
| `Chat.ListenStaysOnOpenConnection` | src/rpc/chat.rs:75-79 | while a connection sends only Messages, the listener stays on it and serves no later connection |
| `Chat.ListenMovesOnAfterNonMessage` | src/rpc/chat.rs:75-79 | once a connection's read is not a Message, the listener goes on to the next accepted connection |
| `Chat.ForwardSentMessages` | src/rpc/chat.rs:76-79 | Messages a peer writes, each fitting one read, all reach the queue in order |
| `Cli.Decimal` | src/main.rs:123 | a count is printed as digits only, with no leading zero |
| `Cli.DecimalRoundTrip` | src/main.rs:123-126 | the printed count reads back as the number |
| `Cli.Bucket` | src/main.rs:121-127 | seconds below a minute, minutes below an hour, hours below a day, then days; the count is the whole number of units in the duration |
| `Cli.BucketRanges` | src/main.rs:122-127 | seconds run 0-59, minutes 1-59, hours 1-23, and days start at 1 |
| `Cli.BucketMonotone` | src/main.rs:122-127 | a longer duration never shows less time |
| `Cli.DurationAgo` | src/main.rs:120-128 | the text reads back as the unit and count of the bucket its seconds fall in, and its count is written without leading zeros |
| `Cli.AgoTextRoundTrip` | src/main.rs:123-126 | any count followed by any unit's `(s) ago` tail reads back as that unit and count |
| `Cli.DurationAgoSameText` | src/main.rs:120-128 | two durations read the same exactly when they have the same unit and count |
| `Cli.LastSeenText` | src/main.rs:111-115 | `"never"` exactly for a peer never seen; a timestamp later than the clock panics; otherwise the time since the timestamp |
| `Cli.NeverIsNotADuration` | src/main.rs:111-115 | `"never"` is never a duration text |
| `Cli.NeverMeansOffline` | src/main.rs:111-115 | for peers whose status and timestamp agree, exactly the offline ones show `"never"` |

## Left out

- `src/args.rs` (argument parsing and shell completions) and `src/conf/` (configuration loading) are not part of this model. They only wrap libraries.
- RSA key generation and PEM writing in `init` (`src/main.rs`) are left out. They call an external crypto library, and nothing reads the keys.
- Sockets, files, stdin and stdout are not modelled as such. Each operation is an outcome given as input.
- `process::exit(1)` is modelled as an `Abort` result. Log messages are not modelled.
- Tokio tasks, the `Arc<Mutex<PeerInfo>>`, and the waking of suspended queue senders are not modelled. Each handshake and each queue operation is one atomic step.
- serde_json's byte syntax is left out: it is the `Codec` parameter. The JSON file form of `PeerInfo` is a `Codec` over characters.
- The text form of `SocketAddr` is left out. Addresses are compared structurally.
- Each read is one chunk of bytes, given as input. Bytes beyond the 1024-byte buffer stay in the socket, and the next read returns them. The model does not derive one read from the previous one; each `RawRead` is free, so a request split over two reads is two independent reads.
- `SystemTime` is whole seconds. `elapsed()` rounds down to seconds via `as_secs`.
- `Chat.PushLine`: `max_height - 2` is taken to be at least 0. In the code, a terminal under two rows makes that subtraction underflow. Terminal escape sequences, colours and `terminal::size` are left out. The model keeps the history, the rows and the centred title.
- The ordering of the stream map and of the peer listing follows `HashMap` iteration. It is a parameter (`streams`), not derived.
- The column padding of the peer listing (`{:<38}` and so on) is left out. Only the "last seen" cell is modelled.
- At end of input, `read_line` succeeds with nothing, and the input loop keeps sending empty Messages. In `Chat.HandleLine` that is the line `""`. A failed `read_line` panics through `unwrap`; the model reports it as `ReaderStopped`, and the unwinding of the task is left out.
- `Uuid::default()` (the all-zero id) and the `Debug` impls are left out. Nothing in the core calls them.
- `Ping::new`, `Pong::new`, `Message::new`, `Peer::new` and the `From` conversions are datatype constructors here. `Peer::new` is `PeerRecord.NewPeer`.
- `Chat.Listen` has no contract of its own. Its behaviour is stated by `Chat.ListenStopsAtFailedAccept`, `Chat.ListenStaysOnOpenConnection`, `Chat.ListenMovesOnAfterNonMessage` and, per connection, by `Chat.Forward`. A connection whose given reads are all Messages is one still open when the reads given for it run out.
- Sends from the listener into a full queue are left out. `Chat.Forward` lists what the listener hands to the queue, not when each send completes.

=== FILE: chat.dfy ===
/**
 * The chat relay (src/rpc/chat.rs): an input reader that queues each local
 * line and writes it to every peer stream, a listener that queues the
 * Messages other peers send, and a renderer that keeps a bounded,
 * newest-first history and repaints the terminal after each message. The
 * three share one queue of capacity 32; each queue operation is one atomic
 * step here.
 */
module Chat {
  import opened Wrappers
  import opened Crypto
  import opened Io
  import opened Serde
  import opened Wire
  import opened PeerRecord

  // ---------------------------------------------------------------------
  // The relay queue
  // ---------------------------------------------------------------------

  /** `mpsc::channel(32)`. */
  const QueueCapacity: nat := 32

  /**
   * `tx.send`: appends the message, or `None` when the queue is full, which
   * stands for the sender being suspended with the queue left as it was.
   */
  function Publish(q: seq<Message>, m: Message): (r: Option<seq<Message>>)
    ensures r.None? <==> |q| >= QueueCapacity
    ensures r.Some? ==> |r.value| == |q| + 1 && r.value[..|q|] == q && r.value[|q|] == m
  {
    if |q| >= QueueCapacity then None else Some(q + [m])
  }

  /** `rx.recv`: the oldest message and the rest, or `None` when there is nothing to take. */
  function Take(q: seq<Message>): (r: Option<(Message, seq<Message>)>)
    ensures r.None? <==> |q| == 0
    ensures r.Some? ==> [r.value.0] + r.value.1 == q
  {
    if |q| == 0 then None else Some((q[0], q[1..]))
  }

  /** The queue never holds more than 32 messages. */
  lemma PublishBounded(q: seq<Message>, m: Message)
    requires |q| <= QueueCapacity
    ensures Publish(q, m).Some? ==> |Publish(q, m).value| <= QueueCapacity
  {
  }

  /** Messages leave in the order they came: publishing to a non-empty queue does not change what is taken next. */
  lemma FirstInFirstOut(q: seq<Message>, m: Message)
    requires 0 < |q| < QueueCapacity
    ensures Take(Publish(q, m).value).value.0 == Take(q).value.0
  {
  }

  // ---------------------------------------------------------------------
  // Reading local input
  // ---------------------------------------------------------------------

  /** Rust's `char::is_whitespace`: the Unicode `White_Space` property. */
  predicate IsWhitespace(c: char)
  {
    || ('\U{9}' <= c <= '\U{D}') || c == ' ' || c == '\U{85}' || c == '\U{A0}' || c == '\U{1680}'
    || ('\U{2000}' <= c <= '\U{200A}') || c == '\U{2028}' || c == '\U{2029}' || c == '\U{202F}'
    || c == '\U{205F}' || c == '\U{3000}'
  }

  /** Where the text starts once the whitespace from `i` on is skipped. */
  function SkipLeading(s: string, i: nat): (r: nat)
    requires i <= |s|
    ensures i <= r <= |s|
    ensures forall k :: i <= k < r ==> IsWhitespace(s[k])
    ensures r < |s| ==> !IsWhitespace(s[r])
    decreases |s| - i
  {
    if i < |s| && IsWhitespace(s[i]) then SkipLeading(s, i + 1) else i
  }

  /** Where the text ends once the whitespace before `j`, down to `lo`, is skipped. */
  function SkipTrailing(s: string, lo: nat, j: nat): (r: nat)
    requires lo <= j <= |s|
    ensures lo <= r <= j
    ensures forall k :: r <= k < j ==> IsWhitespace(s[k])
    ensures r > lo ==> !IsWhitespace(s[r - 1])
    decreases j
  {
    if j > lo && IsWhitespace(s[j - 1]) then SkipTrailing(s, lo, j - 1) else j
  }

  /** `str::trim`: drops whitespace at both ends; the result is empty or begins and ends with a non-whitespace character. */
  function Trim(s: string): (r: string)
    ensures |r| <= |s|
    ensures |r| > 0 ==> !IsWhitespace(r[0]) && !IsWhitespace(r[|r| - 1])
  {
    var start := SkipLeading(s, 0);
    s[start..SkipTrailing(s, start, |s|)]
  }

  /**
   * What trimming keeps is one slice of the input, and everything before
   * and after that slice is whitespace.
   */
  lemma TrimShape(s: string)
    ensures var start := SkipLeading(s, 0); var end := SkipTrailing(s, start, |s|);
      && Trim(s) == s[start..end]
      && (forall k :: 0 <= k < start ==> IsWhitespace(s[k]))
      && (forall k :: end <= k < |s| ==> IsWhitespace(s[k]))
  {
  }

  /** Trimming twice is trimming once. */
  lemma TrimIdempotent(s: string)
    ensures Trim(Trim(s)) == Trim(s)
  {
    var t := Trim(s);
    if |t| > 0 {
      assert SkipLeading(t, 0) == 0;
      assert SkipTrailing(t, 0, |t|) == |t|;
    }
  }

  /**
   * The Message built from one input line: the local id and the trimmed
   * line. Blank lines are not filtered: a line of only whitespace still
   * yields a Message, with empty text.
   */
  function InputMessage(localId: Uuid, line: string): (m: Message)
    ensures m.peerId == localId && m.text == Trim(line)
    ensures (forall k :: 0 <= k < |line| ==> IsWhitespace(line[k])) ==> m.text == ""
  {
    Message(localId, Trim(line))
  }

  /**
   * The peers the input reader holds a stream to: each known peer's chat
   * address is dialled once at startup, `dial(id)` is how that connect
   * ended, and the peers whose connect failed are skipped for good.
   */
  function OpenStreams(peers: map<Uuid, Peer>, dial: Uuid -> IoOutcome): (r: set<Uuid>)
    ensures forall id :: id in r <==> id in peers && dial(id).Done?
  {
    set id | id in peers && dial(id).Done?
  }

  /** Whether the write of `msg` to the stream of `id` succeeds, given how each stream's write ends. */
  predicate Delivers(id: Uuid, msg: Message, sink: Uuid -> IoOutcome, json: Codec<Doc, byte>)
  {
    WriteReq(MessageReq(msg), json, sink(id)).Ok?
  }

  /** The streams, in iteration order, that a fan-out reaches. */
  function Delivered(streams: seq<Uuid>, msg: Message, sink: Uuid -> IoOutcome, json: Codec<Doc, byte>): (r: seq<Uuid>)
    ensures |r| <= |streams|
    ensures forall id :: id in r ==> id in streams && Delivers(id, msg, sink, json)
  {
    if |streams| == 0 then []
    else
      var init := streams[..|streams| - 1];
      var last := streams[|streams| - 1];
      Delivered(init, msg, sink, json) + (if Delivers(last, msg, sink, json) then [last] else [])
  }

  /** A fan-out reaches exactly the streams whose own write succeeds, whatever happened to the others. */
  lemma {:induction false} DeliveredExactly(streams: seq<Uuid>, msg: Message, sink: Uuid -> IoOutcome, json: Codec<Doc, byte>, id: Uuid)
    ensures id in Delivered(streams, msg, sink, json) <==> id in streams && Delivers(id, msg, sink, json)
    decreases |streams|
  {
    if |streams| > 0 {
      var init := streams[..|streams| - 1];
      DeliveredExactly(init, msg, sink, json, id);
      assert streams == init + [streams[|streams| - 1]];
    }
  }

  /**
   * The fan-out loop: the message is written to every stream in turn, and a
   * failed write (whose result is discarded) does not stop the loop.
   */
  method FanOut(msg: Message, streams: seq<Uuid>, sink: Uuid -> IoOutcome, json: Codec<Doc, byte>)
    returns (attempted: seq<Uuid>, delivered: seq<Uuid>)
    ensures attempted == streams
    ensures delivered == Delivered(streams, msg, sink, json)
  {
    attempted, delivered := [], [];
    var i := 0;
    while i < |streams|
      invariant 0 <= i <= |streams|
      invariant attempted == streams[..i]
      invariant delivered == Delivered(streams[..i], msg, sink, json)
    {
      var id := streams[i];
      attempted := attempted + [id];
      var written := WriteReq(MessageReq(msg), json, sink(id));
      if written.Ok? {
        delivered := delivered + [id];
      }
      assert streams[..i + 1][..i] == streams[..i];
      i := i + 1;
    }
    assert streams[..i] == streams;
  }

  /**
   * What one turn of the input loop leads to: the reader stopped by a failed
   * read (the `unwrap` panics), the sender suspended on a full queue, or the
   * line queued and fanned out.
   */
  datatype LineOutcome =
    | ReaderStopped
    | Suspended
    | Sent(queue: seq<Message>, msg: Message, attempted: seq<Uuid>, delivered: seq<Uuid>)

  /**
   * One turn of the input loop: read a line (`None` when `read_line` fails),
   * build the Message, queue it first, then write it to every open stream.
   * `streams` lists, once each and in the map's iteration order, the peers a
   * stream was opened to at startup. At end of input `read_line` succeeds
   * with nothing, which is the line `""`.
   */
  method HandleLine(q: seq<Message>, localId: Uuid, line: Option<string>,
                    peers: map<Uuid, Peer>, dial: Uuid -> IoOutcome, streams: seq<Uuid>,
                    sink: Uuid -> IoOutcome, json: Codec<Doc, byte>) returns (r: LineOutcome)
    requires forall i, j :: 0 <= i < j < |streams| ==> streams[i] != streams[j]
    requires forall id :: id in streams <==> id in OpenStreams(peers, dial)
    ensures r.ReaderStopped? <==> line.None?
    ensures line.Some? ==> (r.Suspended? <==> |q| >= QueueCapacity)
    ensures r.Sent? ==> line.Some? && r.msg == InputMessage(localId, line.value) && r.queue == q + [r.msg]
    ensures r.Sent? ==> r.attempted == streams && r.delivered == Delivered(streams, r.msg, sink, json)
    ensures r.Sent? ==> forall id :: id in r.delivered <==>
      id in peers && dial(id).Done? && Delivers(id, r.msg, sink, json)
  {
    if line.None? {
      return ReaderStopped;
    }
    var msg := InputMessage(localId, line.value);
    match Publish(q, msg)
    case None =>
      r := Suspended;
    case Some(q') =>
      var attempted, delivered := FanOut(msg, streams, sink, json);
      forall id | true
        ensures id in delivered <==> id in peers && dial(id).Done? && Delivers(id, msg, sink, json)
      {
        DeliveredExactly(streams, msg, sink, json, id);
      }
      r := Sent(q', msg, attempted, delivered);
  }

  // ---------------------------------------------------------------------
  // Rendering
  // ---------------------------------------------------------------------

  /** `"{peer_id}: {text}"`. */
  function HistoryLine(m: Message): (line: string)
    ensures |line| == 38 + |m.text|
    ensures line[..36] == UuidText(m.peerId) && line[36..38] == ": " && line[38..] == m.text
  {
    UuidText(m.peerId) + ": " + m.text
  }

  /** How many lines fit between the header and the prompt. */
  function HistoryCapacity(maxHeight: nat): nat
    requires maxHeight >= 2
  {
    maxHeight - 2
  }

  /**
   * One dequeued message: push its line to the front and, if the history
   * is then over capacity, drop the oldest line from the back.
   */
  function PushLine(history: seq<string>, line: string, maxHeight: nat): (r: seq<string>)
    requires maxHeight >= 2
    ensures |history| <= HistoryCapacity(maxHeight) ==> |r| <= HistoryCapacity(maxHeight)
    ensures |history| < HistoryCapacity(maxHeight) ==> r == [line] + history
    ensures |history| >= HistoryCapacity(maxHeight) ==> |r| == |history|
    ensures HistoryCapacity(maxHeight) > 0 ==> |r| > 0
    ensures |r| <= |history| + 1
    ensures |r| > 0 ==> r[0] == line && r[1..] == history[..|r| - 1]
  {
    var lines := [line] + history;
    if |lines| > HistoryCapacity(maxHeight) then lines[..|lines| - 1] else lines
  }

  /** With no room between header and prompt (a two-row terminal), every line is dropped at once. */
  lemma NoRoomNoHistory(line: string, maxHeight: nat)
    requires maxHeight == 2
    ensures PushLine([], line, maxHeight) == []
  {
  }

  /** The screen row (1-based) history line `i` is drawn on: the newest just above the prompt. */
  function Row(i: nat, maxHeight: nat): int
  {
    maxHeight - i - 1
  }

  /** A terminal drawing command: `text` at the start of `row`. */
  datatype Draw = Draw(row: int, text: string)

  const Title: string := "p2p / chat"
  const Prompt: string := "> "

  /**
   * `{:^width$}`: the text centred in `width` columns, the odd space going
   * to the right; a text wider than `width` is left as it is.
   */
  function Center(s: string, width: nat): (r: string)
    ensures |r| == if |s| < width then width else |s|
    ensures var left := (|r| - |s|) / 2;
      r[left..left + |s|] == s
      && (forall k :: 0 <= k < left ==> r[k] == ' ')
      && (forall k :: left + |s| <= k < |r| ==> r[k] == ' ')
  {
    var pad := if |s| < width then width - |s| else 0;
    Spaces(pad / 2) + s + Spaces(pad - pad / 2)
  }

  function Spaces(n: nat): (r: string)
    ensures |r| == n && forall k :: 0 <= k < n ==> r[k] == ' '
  {
    seq(n, _ => ' ')
  }

  /**
   * The screen after a message arrives: each history line on its row, then
   * the centred header on row 1 and the prompt on the bottom row.
   */
  function Repaint(history: seq<string>, maxHeight: nat, maxWidth: nat): (r: seq<Draw>)
    ensures |r| == |history| + 2
    ensures forall i :: 0 <= i < |history| ==> r[i] == Draw(Row(i, maxHeight), history[i])
    ensures r[|history|] == Draw(1, Center(Title, maxWidth)) && r[|history| + 1] == Draw(maxHeight, Prompt)
  {
    seq(|history|, i requires 0 <= i < |history| => Draw(Row(i, maxHeight), history[i]))
      + [Draw(1, Center(Title, maxWidth)), Draw(maxHeight, Prompt)]
  }

  /**
   * History rows lie strictly between the header and the prompt and fall as
   * lines get older, so no draw of a repaint covers another.
   */
  lemma RepaintRowsDistinct(history: seq<string>, maxHeight: nat, maxWidth: nat)
    requires maxHeight >= 2 && |history| <= HistoryCapacity(maxHeight)
    ensures var r := Repaint(history, maxHeight, maxWidth);
      && (forall i :: 0 <= i < |history| ==> 2 <= r[i].row <= maxHeight - 1)
      && (forall i, j :: 0 <= i < j < |history| ==> r[j].row < r[i].row)
      && (forall i, j :: 0 <= i < j < |r| ==> r[i].row != r[j].row)
  {
  }

  /** One renderer turn: take the oldest queued message and push its line; `None` while the queue is empty. */
  function RenderStep(q: seq<Message>, history: seq<string>, maxHeight: nat): (r: Option<(seq<Message>, seq<string>)>)
    requires maxHeight >= 2
    ensures r.None? <==> |q| == 0
    ensures r.Some? ==> r.value.0 == q[1..]
    ensures r.Some? && maxHeight > 2 ==> |r.value.1| > 0
    ensures r.Some? ==> |r.value.1| <= |history| + 1
    ensures r.Some? && |r.value.1| > 0 ==>
      r.value.1[0] == HistoryLine(q[0]) && r.value.1[1..] == history[..|r.value.1| - 1]
    ensures r.Some? && |history| < HistoryCapacity(maxHeight) ==> r.value.1 == [HistoryLine(q[0])] + history
    ensures r.Some? && |history| >= HistoryCapacity(maxHeight) ==> |r.value.1| == |history|
  {
    if |q| == 0 then None else Some((q[1..], PushLine(history, HistoryLine(q[0]), maxHeight)))
  }

  // ---------------------------------------------------------------------
  // Listening for remote messages
  // ---------------------------------------------------------------------

  /**
   * One accepted connection: every read that decodes to a Message is
   * forwarded, in order, until the first read that does not, which ends the
   * connection.
   */
  function Forward(frames: seq<RawRead>, json: Codec<Doc, byte>): (r: seq<Message>)
    ensures |r| <= |frames|
    ensures forall i :: 0 <= i < |r| ==> MessageOf(frames[i], json) == Some(r[i])
    ensures |r| < |frames| ==> MessageOf(frames[|r|], json).None?
  {
    TakeWhileSome(frames, MessageReader(json))
  }

  /** `MessageOf` for one codec, as a function value. */
  function MessageReader(json: Codec<Doc, byte>): RawRead -> Option<Message>
  {
    raw => MessageOf(raw, json)
  }

  /** The longest prefix of `xs` on which `f` gives a value, mapped through `f`. */
  function TakeWhileSome<T, U>(xs: seq<T>, f: T -> Option<U>): (r: seq<U>)
    ensures |r| <= |xs|
    ensures forall i :: 0 <= i < |r| ==> f(xs[i]) == Some(r[i])
    ensures |r| < |xs| ==> f(xs[|r|]).None?
  {
    if |xs| == 0 then []
    else
      match f(xs[0])
      case Some(y) => [y] + TakeWhileSome(xs[1..], f)
      case None => []
  }

  /** Where `f` gives a value on every element, the whole sequence is mapped. */
  lemma {:induction false} TakeWhileSomeAll<T, U>(xs: seq<T>, ys: seq<U>, f: T -> Option<U>)
    requires |xs| == |ys| && forall i :: 0 <= i < |xs| ==> f(xs[i]) == Some(ys[i])
    ensures TakeWhileSome(xs, f) == ys
    decreases |xs|
  {
    if |xs| > 0 {
      TakeWhileSomeAll(xs[1..], ys[1..], f);
    }
  }

  /** Once `f` fails inside `xs`, whatever follows `xs` is never looked at. */
  lemma {:induction false} TakeWhileSomeAppend<T, U>(xs: seq<T>, later: seq<T>, k: nat, f: T -> Option<U>)
    requires k < |xs| && f(xs[k]).None?
    ensures TakeWhileSome(xs + later, f) == TakeWhileSome(xs, f) && |TakeWhileSome(xs, f)| <= k
    decreases |xs|
  {
    assert (xs + later)[0] == xs[0];
    if f(xs[0]).Some? {
      assert (xs + later)[1..] == xs[1..] + later;
      TakeWhileSomeAppend(xs[1..], later, k - 1, f);
    }
  }

  /** The Message one read delivers, if it delivers a Message at all. */
  function MessageOf(raw: RawRead, json: Codec<Doc, byte>): (r: Option<Message>)
    ensures r.Some? <==> ReadReq(raw, ReadCap, json).Ok? && ReadReq(raw, ReadCap, json).value.MessageReq?
    ensures r.Some? ==> ReadReq(raw, ReadCap, json) == Ok(MessageReq(r.value))
  {
    match ReadReq(raw, ReadCap, json)
    case Ok(MessageReq(m)) => Some(m)
    case _ => None
  }

  /**
   * The listener: connections are served one after another, and the loop
   * ends at the first failed accept (`None`). A connection is left only at a
   * read that is not a Message; if every read given for it was a Message,
   * the listener is still on that connection and serves no later one.
   */
  function Listen(accepted: seq<Option<seq<RawRead>>>, json: Codec<Doc, byte>): (r: seq<Message>)
  {
    if |accepted| == 0 || accepted[0].None? then []
    else
      var forwarded := Forward(accepted[0].value, json);
      if |forwarded| == |accepted[0].value| then forwarded
      else forwarded + Listen(accepted[1..], json)
  }

  /** While a connection sends only Messages, no later connection is served. */
  lemma ListenStaysOnOpenConnection(frames: seq<RawRead>, rest: seq<Option<seq<RawRead>>>, json: Codec<Doc, byte>)
    requires |Forward(frames, json)| == |frames|
    ensures Listen([Some(frames)] + rest, json) == Forward(frames, json)
  {
    assert ([Some(frames)] + rest)[0] == Some(frames);
  }

  /** A connection with a read that is not a Message hands over to the next accepted one. */
  lemma ListenMovesOnAfterNonMessage(frames: seq<RawRead>, k: nat, rest: seq<Option<seq<RawRead>>>, json: Codec<Doc, byte>)
    requires k < |frames| && MessageOf(frames[k], json).None?
    ensures Listen([Some(frames)] + rest, json) == Forward(frames, json) + Listen(rest, json)
  {
    TakeWhileSomeAppend(frames, [], k, MessageReader(json));
    assert ([Some(frames)] + rest)[0] == Some(frames);
    assert ([Some(frames)] + rest)[1..] == rest;
  }

  /** Reads after the first non-Message on a connection are never looked at. */
  lemma ForwardStopsAtFirstNonMessage(frames: seq<RawRead>, k: nat, later: seq<RawRead>, json: Codec<Doc, byte>)
    requires k < |frames|
    requires !(ReadReq(frames[k], ReadCap, json).Ok? && ReadReq(frames[k], ReadCap, json).value.MessageReq?)
    ensures Forward(frames + later, json) == Forward(frames, json)
    ensures |Forward(frames, json)| <= k
  {
    TakeWhileSomeAppend(frames, later, k, MessageReader(json));
  }

  /** A failed accept ends the listener: no later connection is served. */
  lemma ListenStopsAtFailedAccept(before: seq<Option<seq<RawRead>>>, after: seq<Option<seq<RawRead>>>, json: Codec<Doc, byte>)
    requires forall i :: 0 <= i < |before| ==> before[i].Some?
    ensures Listen(before + [None] + after, json) == Listen(before, json)
    decreases |before|
  {
    if |before| > 0 {
      assert (before + [None] + after)[1..] == before[1..] + [None] + after;
      ListenStopsAtFailedAccept(before[1..], after, json);
    }
  }

  /** Messages a peer sent, each in one read that fits the buffer, all reach the queue in order. */
  lemma ForwardSentMessages(msgs: seq<Message>, frames: seq<RawRead>, json: Codec<Doc, byte>)
    requires Lawful(json) && |frames| == |msgs|
    requires forall i :: 0 <= i < |msgs| ==>
      WriteReq(MessageReq(msgs[i]), json, Done).Ok? && frames[i] == Received(WriteReq(MessageReq(msgs[i]), json, Done).value)
      && |frames[i].bytes| <= ReadCap
    ensures Forward(frames, json) == msgs
  {
    forall i | 0 <= i < |msgs|
      ensures MessageReader(json)(frames[i]) == Some(msgs[i])
    {
      WireRoundTrip(MessageReq(msgs[i]), json, ReadCap);
    }
    TakeWhileSomeAll(frames, msgs, MessageReader(json));
  }
}

=== FILE: cli.dfy ===
/**
 * The "last seen" column of the peer listing (src/main.rs): how long ago a
 * peer was last seen, in the largest whole unit that fits, or "never".
 */
module Cli {
  import opened Wrappers
  import opened PeerRecord

  // ---------------------------------------------------------------------
  // Decimal text of a natural number (Rust's `Display` for `u64`)
  // ---------------------------------------------------------------------

  predicate IsDigit(c: char)
  {
    '0' <= c <= '9'
  }

  function DigitChar(d: nat): (c: char)
    requires d < 10
    ensures IsDigit(c) && (c as int) - ('0' as int) == d
  {
    (('0' as int) + d) as char
  }

  function DigitValue(c: char): (d: nat)
    requires IsDigit(c)
    ensures d < 10 && DigitChar(d) == c
  {
    (c as int) - ('0' as int)
  }

  /** Shortest decimal text of `n`: digits only, and no leading zero unless `n` is 0. */
  function Decimal(n: nat): (r: string)
    ensures |r| > 0
    ensures forall k :: 0 <= k < |r| ==> IsDigit(r[k])
    ensures |r| > 1 ==> r[0] != '0'
    decreases n
  {
    if n < 10 then [DigitChar(n)] else Decimal(n / 10) + [DigitChar(n % 10)]
  }

  /** The number a run of digits denotes. */
  function DecimalValue(s: string): nat
    requires forall k :: 0 <= k < |s| ==> IsDigit(s[k])
    decreases |s|
  {
    if |s| == 0 then 0
    else DecimalValue(s[..|s| - 1]) * 10 + DigitValue(s[|s| - 1])
  }

  /** Reading back the decimal text gives the number. */
  lemma {:induction false} DecimalRoundTrip(n: nat)
    ensures DecimalValue(Decimal(n)) == n
    decreases n
  {
    if n >= 10 {
      var d := Decimal(n);
      assert d[..|d| - 1] == Decimal(n / 10);
      DecimalRoundTrip(n / 10);
    }
  }

  /** Distinct numbers have distinct texts. */
  lemma DecimalInjective(a: nat, b: nat)
    requires Decimal(a) == Decimal(b)
    ensures a == b
  {
    DecimalRoundTrip(a);
    DecimalRoundTrip(b);
  }

  // ---------------------------------------------------------------------
  // format_duration_ago
  // ---------------------------------------------------------------------

  datatype Unit = Seconds | Minutes | Hours | Days

  function UnitSeconds(u: Unit): nat
  {
    match u
    case Seconds => 1
    case Minutes => 60
    case Hours => 3600
    case Days => 86400
  }

  function UnitWord(u: Unit): string
  {
    match u
    case Seconds => "second"
    case Minutes => "minute"
    case Hours => "hour"
    case Days => "day"
  }

  /**
   * The unit a duration of `secs` whole seconds is shown in, and how many
   * whole units it holds: the largest unit the duration reaches, rounded
   * down.
   */
  function Bucket(secs: nat): (r: (Unit, nat))
    ensures UnitSeconds(r.0) * r.1 <= secs < UnitSeconds(r.0) * (r.1 + 1)
    ensures r.0 == Seconds <==> secs < 60
    ensures r.0 == Minutes <==> 60 <= secs < 3600
    ensures r.0 == Hours <==> 3600 <= secs < 86400
    ensures r.0 == Days <==> 86400 <= secs
  {
    if secs <= 59 then (Seconds, secs)
    else if secs <= 3599 then (Minutes, secs / 60)
    else if secs <= 86399 then (Hours, secs / 3600)
    else (Days, secs / 86400)
  }

  /** Each count stays below the next unit: 0-59 seconds, 1-59 minutes, 1-23 hours, and at least one day. */
  lemma BucketRanges(secs: nat)
    ensures var (u, n) := Bucket(secs);
      match u
      case Seconds => n <= 59
      case Minutes => 1 <= n <= 59
      case Hours => 1 <= n <= 23
      case Days => 1 <= n
  {
  }

  /** A longer duration never shows a smaller amount of time. */
  lemma BucketMonotone(a: nat, b: nat)
    requires a <= b
    ensures UnitSeconds(Bucket(a).0) * Bucket(a).1 <= UnitSeconds(Bucket(b).0) * Bucket(b).1
  {
    var (ua, na) := Bucket(a);
    var (ub, nb) := Bucket(b);
    if ua != ub {
      assert nb >= 1;
      assert UnitSeconds(ub) * nb >= UnitSeconds(ub);
    }
  }

  /** `format_duration_ago`: `"{n} second(s) ago"`, `"{n} minute(s) ago"`, and so on. */
  function DurationAgo(secs: nat): (r: string)
    ensures ParseAgo(r) == Some(Bucket(secs))
    ensures 0 < DigitRun(r) && (DigitRun(r) > 1 ==> r[0] != '0')
  {
    var (u, n) := Bucket(secs);
    AgoTextRoundTrip(u, n);
    DigitRunOfDecimal(Decimal(n), UnitTail(u));
    Decimal(n) + UnitTail(u)
  }

  /** The text after the leading run of digits. */
  function DigitRun(s: string): (n: nat)
    ensures n <= |s|
    ensures forall k :: 0 <= k < n ==> IsDigit(s[k])
    ensures n < |s| ==> !IsDigit(s[n])
    decreases |s|
  {
    if |s| > 0 && IsDigit(s[0]) then 1 + DigitRun(s[1..]) else 0
  }

  /**
   * Reads a duration text back: the count from the leading digits and the
   * unit from the words after them; `None` for any other text.
   */
  function ParseAgo(t: string): (r: Option<(Unit, nat)>)
  {
    var n := DigitRun(t);
    var rest := t[n..];
    if n == 0 || |rest| < 2 then None
    else
      match UnitByInitial(rest[1])
      case Some(u) => if SameText(rest, UnitTail(u)) then Some((u, DecimalValue(t[..n]))) else None
      case None => None
  }

  /** The unit whose word starts with `c`: the four words all start differently. */
  function UnitByInitial(c: char): Option<Unit>
  {
    if c == 's' then Some(Seconds)
    else if c == 'm' then Some(Minutes)
    else if c == 'h' then Some(Hours)
    else if c == 'd' then Some(Days)
    else None
  }

  /** Character-by-character comparison of two texts. */
  function SameText(a: string, b: string): bool
    decreases |a|
  {
    if |a| == 0 then |b| == 0 else |b| > 0 && a[0] == b[0] && SameText(a[1..], b[1..])
  }

  /** `SameText` is equality of texts. */
  lemma {:induction false} SameTextIsEquality(a: string, b: string)
    ensures SameText(a, b) <==> a == b
    decreases |a|
  {
    if |a| > 0 && |b| > 0 {
      SameTextIsEquality(a[1..], b[1..]);
      assert a == [a[0]] + a[1..] && b == [b[0]] + b[1..];
    }
  }

  lemma {:induction false} DigitRunOfDecimal(d: string, rest: string)
    requires forall k :: 0 <= k < |d| ==> IsDigit(d[k])
    requires |rest| > 0 && !IsDigit(rest[0])
    ensures DigitRun(d + rest) == |d|
    decreases |d|
  {
    if |d| > 0 {
      assert (d + rest)[1..] == d[1..] + rest;
      DigitRunOfDecimal(d[1..], rest);
    } else {
      assert d + rest == rest;
    }
  }

  /** The words after the count, for each unit. */
  function UnitTail(u: Unit): (r: string)
    ensures |r| > 0 && !IsDigit(r[0])
  {
    " " + UnitWord(u) + "(s) ago"
  }

  /** A count followed by the words of a unit reads back as that unit and count. */
  lemma AgoTextRoundTrip(u: Unit, n: nat)
    ensures ParseAgo(Decimal(n) + UnitTail(u)) == Some((u, n))
  {
    var d := Decimal(n);
    var tail := UnitTail(u);
    var t := d + tail;
    DigitRunOfDecimal(d, tail);
    assert t[..|d|] == d;
    assert t[|d|..] == tail;
    DecimalRoundTrip(n);
    SameTextIsEquality(tail, tail);
  }

  /** Two durations read the same exactly when they fall in the same unit with the same count. */
  lemma DurationAgoSameText(a: nat, b: nat)
    ensures DurationAgo(a) == DurationAgo(b) <==> Bucket(a) == Bucket(b)
  {
  }

  // ---------------------------------------------------------------------
  // The "last seen" column
  // ---------------------------------------------------------------------

  /**
   * "never" for a peer never seen, else how long before `now` it was last
   * seen. `None` stands for the panic of `elapsed().unwrap()` when the
   * recorded time is later than the clock.
   */
  function LastSeenText(p: Peer, now: Time): (r: Option<string>)
    ensures r == Some("never") <==> p.lastSeen.None?
    ensures r.None? <==> p.lastSeen.Some? && p.lastSeen.value > now
    ensures p.lastSeen.Some? && p.lastSeen.value <= now ==> r == Some(DurationAgo(now - p.lastSeen.value))
  {
    match p.lastSeen
    case None => Some("never")
    case Some(t) =>
      if t > now then None
      else
        var text := DurationAgo(now - t);
        NeverIsNotADuration(now - t);
        assert text != "never";
        Some(text)
  }

  /** "never" cannot be mistaken for a duration. */
  lemma NeverIsNotADuration(secs: nat)
    ensures DurationAgo(secs) != "never"
  {
    assert DigitRun("never") == 0;
  }

  /** Among peers whose status and timestamp agree, exactly the Offline ones show "never". */
  lemma NeverMeansOffline(p: Peer, now: Time)
    requires Consistent(p)
    ensures LastSeenText(p, now) == Some("never") <==> p.status == Offline
  {
  }
}

=== FILE: client.dfy ===
/**
 * The discovery client (src/rpc/client.rs): dial one address, send a Ping,
 * read one reply and, if it is a Pong, record the responder and save. Every
 * failure ends the process; here that is an `Abort` outcome.
 */
module Client {
  import opened Wrappers
  import opened Crypto
  import opened Io
  import opened Serde
  import opened Wire
  import opened PeerRecord
  import opened Directory

  /** Why an invocation ended early. */
  datatype Abort =
    | Unreachable                       // the connect failed
    | PingNotSent(kind: IoKind)         // serializing or writing the Ping failed
    | NotAPong                          // the reply was another request
    | ConnectionLost                    // the reply read ended with `ConnectionAborted`
    | ReceiveFailed(kind: IoKind)       // any other read or decode error
    | SaveFailed(error: Directory.ErrorKind)

  /** How the world answers: the connect, the Ping write, the one reply read, the clock and the file system. */
  datatype Dial = Dial(connect: IoOutcome, pingSink: IoOutcome, reply: RawRead, now: Time, fs: Fs)

  /** The Ping offered (none if the connect failed), and how the invocation ended. */
  datatype Run = Run(sent: Option<Ping>, outcome: Result<PeerInfo, Abort>)

  /** The Ping the client sends: its own id, control address and chat address. */
  function PingFor(info: PeerInfo): (p: Ping)
    ensures p.peerId == info.id && p.peerAddr == info.addr && p.peerChatAddr == info.chatAddr
  {
    Ping(info.id, info.addr, info.chatAddr)
  }

  /** How the reply read is classified. */
  function Classify(reply: Result<Request, IoKind>): (r: Result<Pong, Abort>)
    ensures r.Ok? <==> reply.Ok? && reply.value.PongReq?
    ensures r.Ok? ==> reply == Ok(PongReq(r.value))
  {
    match reply
    case Ok(PongReq(pong)) => Ok(pong)
    case Ok(_) => Err(NotAPong)
    case Err(ConnectionAborted) => Err(ConnectionLost)
    case Err(kind) => Err(ReceiveFailed(kind))
  }

  /**
   * `connect`: a Pong from the responder files it under its id, with the
   * dialed address as control address and the Pong's chat address, unless
   * it was known already; either way it becomes online and seen now, and
   * the directory is saved. A failed save aborts.
   */
  function Connect(addr: SocketAddr, info: PeerInfo, dial: Dial, json: Codec<Doc, byte>, file: Codec<PeerInfo, char>): (r: Run)
    ensures dial.connect.Failed? ==> r == Run(None, Err(Unreachable))
    ensures dial.connect.Done? ==> r.sent == Some(PingFor(info))
    ensures r.outcome.Ok? ==> r.outcome.value.id == info.id && r.outcome.value.addr == info.addr
                              && r.outcome.value.chatAddr == info.chatAddr
    ensures r.outcome.Ok? ==>
      && ReadReq(dial.reply, ReadCap, json).Ok? && ReadReq(dial.reply, ReadCap, json).value.PongReq?
      && r.outcome.value == Touch(info, ReadReq(dial.reply, ReadCap, json).value.pong.peerId, addr,
                                  ReadReq(dial.reply, ReadCap, json).value.pong.peerChatAddr, dial.now)
      && Save(r.outcome.value, file, dial.fs).result.Ok?
  {
    if dial.connect.Failed? then Run(None, Err(Unreachable))
    else
      var ping := PingFor(info);
      match WriteReq(PingReq(ping), json, dial.pingSink)
      case Err(kind) => Run(Some(ping), Err(PingNotSent(kind)))
      case Ok(_) =>
        match Classify(ReadReq(dial.reply, ReadCap, json))
        case Err(why) => Run(Some(ping), Err(why))
        case Ok(pong) =>
          var updated := Touch(info, pong.peerId, addr, pong.peerChatAddr, dial.now);
          match Save(updated, file, dial.fs).result
          case Err(e) => Run(Some(ping), Err(SaveFailed(e)))
          case Ok(_) => Run(Some(ping), Ok(updated))
  }

  // ---------------------------------------------------------------------
  // Properties
  // ---------------------------------------------------------------------

  /** The invocation succeeds exactly when every step does and the reply is a Pong. */
  lemma ConnectSucceedsIff(addr: SocketAddr, info: PeerInfo, dial: Dial, json: Codec<Doc, byte>, file: Codec<PeerInfo, char>)
    ensures Connect(addr, info, dial, json, file).outcome.Ok? <==>
      && dial.connect.Done?
      && WriteReq(PingReq(PingFor(info)), json, dial.pingSink).Ok?
      && ReadReq(dial.reply, ReadCap, json).Ok? && ReadReq(dial.reply, ReadCap, json).value.PongReq?
      && Save(Touch(info, ReadReq(dial.reply, ReadCap, json).value.pong.peerId, addr,
                    ReadReq(dial.reply, ReadCap, json).value.pong.peerChatAddr, dial.now), file, dial.fs).result.Ok?
  {
  }

  /** Which abort each failing reply read produces. */
  lemma ReplyFailures(addr: SocketAddr, info: PeerInfo, dial: Dial, json: Codec<Doc, byte>, file: Codec<PeerInfo, char>)
    requires dial.connect.Done? && WriteReq(PingReq(PingFor(info)), json, dial.pingSink).Ok?
    ensures var reply := ReadReq(dial.reply, ReadCap, json);
      var out := Connect(addr, info, dial, json, file).outcome;
      && (reply.Ok? && !reply.value.PongReq? ==> out == Err(NotAPong))
      && (reply == Err(ConnectionAborted) ==> out == Err(ConnectionLost))
      && (reply.Err? && reply.error != ConnectionAborted ==> out == Err(ReceiveFailed(reply.error)))
  {
  }

  /**
   * After a Pong and a good save the responder is online and seen now, an
   * unseen responder is filed with the dialed address and the Pong's chat
   * address, a known one keeps its addresses, and nobody else changes.
   */
  lemma PongRecordsResponder(addr: SocketAddr, info: PeerInfo, dial: Dial, json: Codec<Doc, byte>, file: Codec<PeerInfo, char>)
    requires Connect(addr, info, dial, json, file).outcome.Ok?
    ensures var r := Connect(addr, info, dial, json, file).outcome.value;
      var pong := ReadReq(dial.reply, ReadCap, json).value.pong;
      && ReadReq(dial.reply, ReadCap, json).Ok? && ReadReq(dial.reply, ReadCap, json).value.PongReq?
      && r.path == info.path && r.peers.Keys == info.peers.Keys + {pong.peerId}
      && pong.peerId in r.peers
      && r.peers[pong.peerId].status == Online && r.peers[pong.peerId].lastSeen == Some(dial.now)
      && (pong.peerId !in info.peers ==> r.peers[pong.peerId].addr == addr && r.peers[pong.peerId].chatAddr == pong.peerChatAddr)
      && (pong.peerId in info.peers ==> r.peers[pong.peerId].addr == info.peers[pong.peerId].addr
                                        && r.peers[pong.peerId].chatAddr == info.peers[pong.peerId].chatAddr)
      && (forall k :: k in info.peers && k != pong.peerId ==> r.peers[k] == info.peers[k])
  {
    var pong := ReadReq(dial.reply, ReadCap, json).value.pong;
    TouchEffect(info, pong.peerId, addr, pong.peerChatAddr, dial.now);
  }

  /** A successful invocation keeps each record under its own id and each record consistent. */
  lemma ConnectKeepsInvariants(addr: SocketAddr, info: PeerInfo, dial: Dial, json: Codec<Doc, byte>, file: Codec<PeerInfo, char>)
    requires WellKeyed(info.peers) && AllConsistent(info.peers)
    requires Connect(addr, info, dial, json, file).outcome.Ok?
    ensures WellKeyed(Connect(addr, info, dial, json, file).outcome.value.peers)
    ensures AllConsistent(Connect(addr, info, dial, json, file).outcome.value.peers)
  {
    var pong := ReadReq(dial.reply, ReadCap, json).value.pong;
    TouchKeepsInvariants(info, pong.peerId, addr, pong.peerChatAddr, dial.now);
  }

  /**
   * End to end over lawful codecs: when a server's Pong fits one read, the
   * client records that server under the server's id, online, with the
   * server's chat address.
   */
  lemma HandshakeEndToEnd(addr: SocketAddr, client: PeerInfo, server: PeerInfo, dial: Dial,
                          json: Codec<Doc, byte>, file: Codec<PeerInfo, char>)
    requires Lawful(json) && server.id !in client.peers
    requires dial.connect.Done? && WriteReq(PingReq(PingFor(client)), json, dial.pingSink).Ok?
    requires WriteReq(PongReq(Pong(server.id, server.chatAddr)), json, Done).Ok?
    requires dial.reply == Received(WriteReq(PongReq(Pong(server.id, server.chatAddr)), json, Done).value)
    requires |dial.reply.bytes| <= ReadCap
    requires Save(Touch(client, server.id, addr, server.chatAddr, dial.now), file, dial.fs).result.Ok?
    ensures var r := Connect(addr, client, dial, json, file).outcome;
      && r.Ok? && server.id in r.value.peers
      && r.value.peers[server.id] == Peer(server.id, addr, server.chatAddr, Online, Some(dial.now))
  {
    WireRoundTrip(PongReq(Pong(server.id, server.chatAddr)), json, ReadCap);
    TouchEffect(client, server.id, addr, server.chatAddr, dial.now);
  }
}

=== FILE: crypto.dfy ===
/**
 * Peer identifiers (src/crypto/uuid.rs): sixteen random bytes with the
 * version-4 marker bits fixed, rendered as five hyphen-separated groups of
 * lower-case hex digits. Each group is the LITTLE-endian reading of its
 * byte slice, not the big-endian field layout of RFC 9562 section 4.
 */
module Crypto {
  import opened Wrappers

  /** An unsigned 8-bit value. */
  type byte = x: int | 0 <= x < 256

  /** Exactly sixteen bytes, the payload of a `UuidV4`. */
  type Bytes16 = s: seq<byte> | |s| == 16 witness [0, 0, 0, 0, 0, 0, 0, 0, 0, 0, 0, 0, 0, 0, 0, 0]

  datatype UuidV4 = UuidV4(bytes: Bytes16)

  /** The identifier type used everywhere else; version 4 is its only case. */
  datatype Uuid = V4(v4: UuidV4)

  /** The one way parsing can fail. */
  datatype ErrorKind = ParseError

  /** Exclusive upper bounds of Rust's `u16`, `u32` and `u64`. */
  const U16Limit: nat := 0x1_0000
  const U32Limit: nat := 0x1_0000_0000
  const U64Limit: nat := 0x1_0000_0000_0000_0000

  // ---------------------------------------------------------------------
  // Little-endian byte groups
  // ---------------------------------------------------------------------

  function Pow256(n: nat): nat
  {
    if n == 0 then 1 else 256 * Pow256(n - 1)
  }

  /** The number whose little-endian bytes are `bs` (`from_le_bytes`). */
  function LeValue(bs: seq<byte>): nat
  {
    if |bs| == 0 then 0 else bs[0] + 256 * LeValue(bs[1..])
  }

  /** The `n` lowest bytes of `v`, least significant first (`to_le_bytes`). */
  function LeBytes(v: nat, n: nat): (r: seq<byte>)
    ensures |r| == n
  {
    if n == 0 then [] else [v % 256] + LeBytes(v / 256, n - 1)
  }

  lemma {:induction false} LeValueBound(bs: seq<byte>)
    ensures LeValue(bs) < Pow256(|bs|)
  {
    if |bs| > 0 {
      LeValueBound(bs[1..]);
    }
  }

  /** Trailing zero bytes do not change a little-endian value. */
  lemma {:induction false} LeValueZeroPad(bs: seq<byte>)
    ensures LeValue(bs + [0]) == LeValue(bs)
  {
    if |bs| == 0 {
      assert LeValue([0]) == 0 + 256 * LeValue([]);
    } else {
      assert (bs + [0])[1..] == bs[1..] + [0];
      LeValueZeroPad(bs[1..]);
    }
  }

  /** Writing a value back out in as many bytes as it was read from restores the bytes. */
  lemma {:induction false} LeBytesOfValue(bs: seq<byte>)
    ensures LeBytes(LeValue(bs), |bs|) == bs
  {
    if |bs| > 0 {
      var v := LeValue(bs);
      var rest := LeValue(bs[1..]);
      assert v == bs[0] + 256 * rest;
      assert v % 256 == bs[0] && v / 256 == rest by {
        DivModUnique(v, bs[0], rest);
      }
      LeBytesOfValue(bs[1..]);
    }
  }

  lemma DivModUnique(v: nat, lo: nat, hi: nat)
    requires lo < 256 && v == lo + 256 * hi
    ensures v % 256 == lo && v / 256 == hi
  {
  }

  /** The first `k` of the `n` lowest bytes are the `k` lowest bytes. */
  lemma {:induction false} LeBytesPrefix(v: nat, n: nat, k: nat)
    requires k <= n
    ensures LeBytes(v, n)[..k] == LeBytes(v, k)
  {
    if k > 0 {
      LeBytesPrefix(v / 256, n - 1, k - 1);
    }
  }

  // ---------------------------------------------------------------------
  // Hexadecimal digits
  // ---------------------------------------------------------------------

  const HexLower: string := "0123456789abcdef"

  function Pow16(n: nat): nat
  {
    if n == 0 then 1 else 16 * Pow16(n - 1)
  }

  lemma {:induction false} Pow16Even(n: nat)
    ensures Pow16(2 * n) == Pow256(n)
  {
    if n > 0 {
      Pow16Even(n - 1);
      assert Pow16(2 * n) == 16 * (16 * Pow16(2 * (n - 1)));
    }
  }

  predicate IsHexChar(c: char)
  {
    '0' <= c <= '9' || 'a' <= c <= 'f' || 'A' <= c <= 'F'
  }

  predicate AllHex(s: string)
  {
    forall i :: 0 <= i < |s| ==> IsHexChar(s[i])
  }

  function HexCharValue(c: char): (d: nat)
    requires IsHexChar(c)
    ensures d < 16
  {
    if '0' <= c <= '9' then c as nat - '0' as nat
    else if 'a' <= c <= 'f' then c as nat - 'a' as nat + 10
    else c as nat - 'A' as nat + 10
  }

  /** The value of a hex digit string, most significant digit first. */
  function HexValue(s: string): nat
    requires AllHex(s)
  {
    if |s| == 0 then 0 else 16 * HexValue(s[..|s| - 1]) + HexCharValue(s[|s| - 1])
  }

  /**
   * `v` in exactly `w` lower-case hex digits, zero-padded on the left, as
   * `{:0wx}` prints it. Every caller passes a value below `Pow16(w)`.
   */
  function HexFixed(v: nat, w: nat): (r: string)
    ensures |r| == w
  {
    if w == 0 then "" else HexFixed(v / 16, w - 1) + [HexLower[v % 16]]
  }

  lemma {:induction false} HexFixedLower(v: nat, w: nat)
    ensures forall i :: 0 <= i < w ==> HexFixed(v, w)[i] in HexLower
  {
    if w > 0 {
      HexFixedLower(v / 16, w - 1);
    }
  }

  /** Reading back a fixed-width rendering gives the value it was made from. */
  lemma {:induction false} HexFixedValue(v: nat, w: nat)
    requires v < Pow16(w)
    ensures AllHex(HexFixed(v, w)) && HexValue(HexFixed(v, w)) == v
  {
    HexFixedLower(v, w);
    var r := HexFixed(v, w);
    assert AllHex(r) by {
      forall i | 0 <= i < |r| ensures IsHexChar(r[i]) {
        assert r[i] in HexLower;
      }
    }
    if w > 0 {
      assert v / 16 < Pow16(w - 1);
      HexFixedValue(v / 16, w - 1);
      assert r[..w - 1] == HexFixed(v / 16, w - 1);
      assert HexCharValue(r[w - 1]) == v % 16 by {
        var d := v % 16;
        assert r[w - 1] == HexLower[d];
      }
    }
  }

  /**
   * `from_str_radix(s, 16)` for an unsigned type whose values lie below
   * `limit`: an optional single `+`, then at least one hex digit of either
   * case, and a value in range. Leading zeros are allowed.
   */
  function ParseUnsigned(s: string, limit: nat): (r: Option<nat>)
    ensures r.Some? ==> r.value < limit
    ensures var digits := if |s| > 0 && s[0] == '+' then s[1..] else s;
      r.Some? <==> |digits| > 0 && AllHex(digits) && HexValue(digits) < limit
    ensures var digits := if |s| > 0 && s[0] == '+' then s[1..] else s;
      r.Some? ==> r.value == HexValue(digits)
  {
    var digits := if |s| > 0 && s[0] == '+' then s[1..] else s;
    if |digits| == 0 || !AllHex(digits) then None
    else if HexValue(digits) < limit then Some(HexValue(digits))
    else None
  }

  lemma ParseUnsignedHexFixed(v: nat, w: nat, limit: nat)
    requires 0 < w && v < Pow16(w) && v < limit
    ensures ParseUnsigned(HexFixed(v, w), limit) == Some(v)
  {
    HexFixedValue(v, w);
    HexFixedLower(v, w);
    assert HexFixed(v, w)[0] in HexLower;
  }

  /** A value too large for the target type is rejected, however it is padded. */
  lemma ParseUnsignedRejectsOverRange(v: nat, w: nat, limit: nat)
    requires 0 < w && limit <= v < Pow16(w)
    ensures ParseUnsigned(HexFixed(v, w), limit) == None
  {
    HexFixedValue(v, w);
    HexFixedLower(v, w);
    assert HexFixed(v, w)[0] in HexLower;
  }

  /** A single leading `+` is accepted and changes nothing. */
  lemma ParseUnsignedPlusSign(s: string, limit: nat)
    requires |s| > 0 && s[0] != '+'
    ensures ParseUnsigned("+" + s, limit) == ParseUnsigned(s, limit)
  {
    assert ("+" + s)[1..] == s;
  }

  /** The digit with the same value in upper case. */
  function UpperDigit(c: char): char
  {
    if 'a' <= c <= 'f' then (c as int - 'a' as int + 'A' as int) as char else c
  }

  /** The text with every lower-case hex letter in upper case. */
  function UpperHex(s: string): (r: string)
    ensures |r| == |s|
    ensures forall i :: 0 <= i < |s| ==> r[i] == UpperDigit(s[i])
  {
    seq(|s|, i requires 0 <= i < |s| => UpperDigit(s[i]))
  }

  lemma {:induction false} HexValueUpper(s: string)
    requires AllHex(s)
    ensures AllHex(UpperHex(s)) && HexValue(UpperHex(s)) == HexValue(s)
    decreases |s|
  {
    if |s| > 0 {
      var u := UpperHex(s);
      assert u[..|s| - 1] == UpperHex(s[..|s| - 1]);
      HexValueUpper(s[..|s| - 1]);
      assert HexCharValue(u[|s| - 1]) == HexCharValue(s[|s| - 1]);
    }
  }

  /** Upper-case hex digits read the same as lower-case ones. */
  lemma ParseUnsignedUpperCase(s: string, limit: nat)
    requires s == [] || s[0] != '+'
    ensures ParseUnsigned(UpperHex(s), limit) == ParseUnsigned(s, limit)
  {
    var u := UpperHex(s);
    if AllHex(s) {
      HexValueUpper(s);
    } else {
      var k :| 0 <= k < |s| && !IsHexChar(s[k]);
      assert u[k] == s[k];
    }
  }

  // ---------------------------------------------------------------------
  // Splitting on a separator
  // ---------------------------------------------------------------------

  /** Rust's `str::split` on a single character: always at least one part. */
  function Split(s: string, sep: char): (parts: seq<string>)
    ensures |parts| >= 1
    decreases |s|
  {
    if |s| == 0 then [""]
    else
      var rest := Split(s[1..], sep);
      if s[0] == sep then [""] + rest
      else [[s[0]] + rest[0]] + rest[1..]
  }

  function Count(s: string, c: char): nat
  {
    if |s| == 0 then 0 else (if s[0] == c then 1 else 0) + Count(s[1..], c)
  }

  function Join(parts: seq<string>, sep: char): string
    requires |parts| >= 1
  {
    if |parts| == 1 then parts[0] else parts[0] + [sep] + Join(parts[1..], sep)
  }

  /** Splitting yields one part more than there are separators. */
  lemma {:induction false} SplitCount(s: string, sep: char)
    ensures |Split(s, sep)| == Count(s, sep) + 1
  {
    if |s| > 0 {
      SplitCount(s[1..], sep);
    }
  }

  /** No part contains the separator, and joining the parts restores the text. */
  lemma {:induction false} SplitJoin(s: string, sep: char)
    ensures Join(Split(s, sep), sep) == s
    ensures forall i :: 0 <= i < |Split(s, sep)| ==> sep !in Split(s, sep)[i]
  {
    if |s| > 0 {
      SplitJoin(s[1..], sep);
      var rest := Split(s[1..], sep);
      if s[0] != sep {
        if |rest| == 1 {
          assert Join(Split(s, sep), sep) == [s[0]] + rest[0];
        } else {
          assert Split(s, sep)[1..] == rest[1..];
          assert Join(rest, sep) == rest[0] + [sep] + Join(rest[1..], sep);
        }
      }
    }
  }

  /** A part free of the separator, followed by the separator, splits off whole. */
  lemma {:induction false} SplitCons(a: string, sep: char, b: string)
    requires sep !in a
    ensures Split(a + [sep] + b, sep) == [a] + Split(b, sep)
    decreases |a|
  {
    if |a| == 0 {
      assert a + [sep] + b == [sep] + b;
      assert ([sep] + b)[1..] == b;
    } else {
      assert (a + [sep] + b)[1..] == a[1..] + [sep] + b;
      SplitCons(a[1..], sep, b);
      assert [a[0]] + a[1..] == a;
    }
  }

  lemma {:induction false} SplitNone(a: string, sep: char)
    requires sep !in a
    ensures Split(a, sep) == [a]
    decreases |a|
  {
    if |a| > 0 {
      SplitNone(a[1..], sep);
      assert [a[0]] + a[1..] == a;
    }
  }

  // ---------------------------------------------------------------------
  // Generation, rendering and parsing
  // ---------------------------------------------------------------------

  /**
   * The bit fixing of `UuidV4::new`, on `bv8`: `(x & 0x0f) | 0x40` and
   * `(x & 0x3f) | 0x80` are the arithmetic `x % 16 + 0x40` and
   * `x % 64 + 0x80` that `WithVersion` and `WithVariant` compute.
   */
  lemma MaskArithmetic(x: bv8)
    ensures (x & 0x0f) | 0x40 == x % 16 + 0x40 && ((x & 0x0f) | 0x40) & 0xf0 == 0x40
    ensures (x & 0x3f) | 0x80 == x % 64 + 0x80 && ((x & 0x3f) | 0x80) & 0xc0 == 0x80
  {
  }

  /** `WithVersion` and `WithVariant` on a byte are the masks `UuidV4::new` applies. */
  lemma MasksAreVersionAndVariant(x: bv8)
    ensures WithVersion(x as int) == ((x & 0x0f) | 0x40) as int
    ensures WithVariant(x as int) == ((x & 0x3f) | 0x80) as int
  {
    MaskArithmetic(x);
    assert (x % 16) as int == (x as int) % 16;
    assert (x % 64) as int == (x as int) % 64;
  }

  /** Byte 6 keeps its low nibble and gets version nibble 4. */
  function WithVersion(x: byte): byte
  {
    x % 16 + 0x40
  }

  /** Byte 8 keeps its low six bits and gets variant bits `10`. */
  function WithVariant(x: byte): byte
  {
    x % 64 + 0x80
  }

  /** Version nibble 4 in byte 6 (`b[6] & 0xf0 == 0x40`) and variant bits `10` in byte 8 (`b[8] & 0xc0 == 0x80`). */
  predicate IsVersion4(b: Bytes16)
  {
    b[6] / 16 == 4 && b[8] / 64 == 2
  }

  /** `UuidV4::new`, with the random source passed in as `rnd`. */
  function NewV4(rnd: Bytes16): (u: UuidV4)
    ensures IsVersion4(u.bytes)
    ensures u.bytes[6] % 16 == rnd[6] % 16 && u.bytes[8] % 64 == rnd[8] % 64
    ensures forall i :: 0 <= i < 16 && i != 6 && i != 8 ==> u.bytes[i] == rnd[i]
  {
    UuidV4(rnd[6 := WithVersion(rnd[6])][8 := WithVariant(rnd[8])])
  }

  /** The numeric values of the five groups: each group's bytes read little-endian. */
  function Group0(b: Bytes16): nat { LeValue(b[0..4]) }
  function Group1(b: Bytes16): nat { LeValue(b[4..6]) }
  function Group2(b: Bytes16): nat { LeValue(b[6..8]) }
  function Group3(b: Bytes16): nat { LeValue(b[8..10]) }
  /** `u64::from_le_bytes` of bytes 10..16 padded with two zero bytes. */
  function Group4(b: Bytes16): nat { LeValue(b[10..16] + [0, 0]) }

  /** `Display for UuidV4`: `{:08x}-{:04x}-{:04x}-{:04x}-{:012x}` of the five groups. */
  function Format(u: UuidV4): (r: string)
    ensures |r| == 36
    ensures forall i :: 0 <= i < 36 ==> (r[i] == '-' <==> i == 8 || i == 13 || i == 18 || i == 23)
    ensures forall i :: 0 <= i < 36 && r[i] != '-' ==> r[i] in HexLower
  {
    var b := u.bytes;
    var r := HexFixed(Group0(b), 8) + "-" + HexFixed(Group1(b), 4) + "-" + HexFixed(Group2(b), 4)
             + "-" + HexFixed(Group3(b), 4) + "-" + HexFixed(Group4(b), 12);
    FormatShape(b, r);
    r
  }

  lemma FormatShape(b: Bytes16, r: string)
    requires r == HexFixed(Group0(b), 8) + "-" + HexFixed(Group1(b), 4) + "-" + HexFixed(Group2(b), 4)
                  + "-" + HexFixed(Group3(b), 4) + "-" + HexFixed(Group4(b), 12)
    ensures |r| == 36
    ensures forall i :: 0 <= i < 36 ==> (r[i] == '-' <==> i == 8 || i == 13 || i == 18 || i == 23)
    ensures forall i :: 0 <= i < 36 && r[i] != '-' ==> r[i] in HexLower
  {
    HexFixedLower(Group0(b), 8);
    HexFixedLower(Group1(b), 4);
    HexFixedLower(Group2(b), 4);
    HexFixedLower(Group3(b), 4);
    HexFixedLower(Group4(b), 12);
    assert '-' !in HexLower;
    forall i | 0 <= i < 36
      ensures r[i] == '-' <==> i == 8 || i == 13 || i == 18 || i == 23
      ensures r[i] != '-' ==> r[i] in HexLower
    {
      if i < 8 { assert r[i] == HexFixed(Group0(b), 8)[i]; }
      else if 9 <= i < 13 { assert r[i] == HexFixed(Group1(b), 4)[i - 9]; }
      else if 14 <= i < 18 { assert r[i] == HexFixed(Group2(b), 4)[i - 14]; }
      else if 19 <= i < 23 { assert r[i] == HexFixed(Group3(b), 4)[i - 19]; }
      else if 24 <= i { assert r[i] == HexFixed(Group4(b), 12)[i - 24]; }
    }
  }

  /** The sixteen bytes made from the five parsed group values; of the last, only its low six bytes. */
  function Assemble(g0: nat, g1: nat, g2: nat, g3: nat, g4: nat): Bytes16
  {
    LeBytes(g0, 4) + LeBytes(g1, 2) + LeBytes(g2, 2) + LeBytes(g3, 2) + LeBytes(g4, 8)[0..6]
  }

  /** Reads five segments as `u32`, `u16`, `u16`, `u16`, `u64` hex numbers. */
  function ParseSegments(seg: seq<string>): Result<UuidV4, ErrorKind>
    requires |seg| == 5
  {
    var p0 := ParseUnsigned(seg[0], U32Limit);
    var p1 := ParseUnsigned(seg[1], U16Limit);
    var p2 := ParseUnsigned(seg[2], U16Limit);
    var p3 := ParseUnsigned(seg[3], U16Limit);
    var p4 := ParseUnsigned(seg[4], U64Limit);
    if p0.None? || p1.None? || p2.None? || p3.None? || p4.None? then Err(ParseError)
    else Ok(UuidV4(Assemble(p0.value, p1.value, p2.value, p3.value, p4.value)))
  }

  /**
   * `TryFrom<String> for UuidV4`: split on `-`, demand five parts, read
   * them as hex numbers and lay each out little-endian.
   */
  function Parse(s: string): (r: Result<UuidV4, ErrorKind>)
    ensures r.Ok? ==> Count(s, '-') == 4
  {
    var seg := Split(s, '-');
    SplitCount(s, '-');
    if |seg| != 5 then Err(ParseError) else ParseSegments(seg)
  }

  // ---------------------------------------------------------------------
  // Properties of the text form
  // ---------------------------------------------------------------------

  lemma Pow256Values()
    ensures Pow256(2) == U16Limit && Pow256(4) == U32Limit && Pow256(8) == U64Limit
    ensures Pow256(6) == 0x1_0000_0000_0000
  {
    assert Pow256(2) == 0x1_0000;
    assert Pow256(4) == 0x1_0000_0000;
    assert Pow256(6) == 0x1_0000_0000_0000;
    assert Pow256(8) == 0x1_0000_0000_0000_0000;
  }

  /** The last group's padding bytes add nothing: it is the value of bytes 10..16, below 2^48. */
  lemma Group4Value(b: Bytes16)
    ensures Group4(b) == LeValue(b[10..16]) < Pow256(6)
  {
    LeValueZeroPad(b[10..16] + [0]);
    LeValueZeroPad(b[10..16]);
    assert b[10..16] + [0, 0] == b[10..16] + [0] + [0];
    LeValueBound(b[10..16]);
  }

  /** Every group fits its digit count and its Rust integer type. */
  lemma GroupBounds(b: Bytes16)
    ensures Group0(b) < Pow16(8) && Group0(b) < U32Limit
    ensures Group1(b) < Pow16(4) && Group1(b) < U16Limit
    ensures Group2(b) < Pow16(4) && Group2(b) < U16Limit
    ensures Group3(b) < Pow16(4) && Group3(b) < U16Limit
    ensures Group4(b) < Pow16(12) && Group4(b) < U64Limit
  {
    Pow256Values();
    Pow16Even(2);
    Pow16Even(4);
    Pow16Even(6);
    LeValueBound(b[0..4]);
    LeValueBound(b[4..6]);
    LeValueBound(b[6..8]);
    LeValueBound(b[8..10]);
    Group4Value(b);
  }

  /** Five hyphen-free parts joined by hyphens split back into those parts. */
  lemma SplitFive(a0: string, a1: string, a2: string, a3: string, a4: string)
    requires '-' !in a0 && '-' !in a1 && '-' !in a2 && '-' !in a3 && '-' !in a4
    ensures Split(a0 + "-" + a1 + "-" + a2 + "-" + a3 + "-" + a4, '-') == [a0, a1, a2, a3, a4]
  {
    assert a0 + "-" + a1 + "-" + a2 + "-" + a3 + "-" + a4
        == a0 + ['-'] + (a1 + ['-'] + (a2 + ['-'] + (a3 + ['-'] + a4)));
    SplitNone(a4, '-');
    SplitCons(a3, '-', a4);
    SplitCons(a2, '-', a3 + ['-'] + a4);
    SplitCons(a1, '-', a2 + ['-'] + (a3 + ['-'] + a4));
    SplitCons(a0, '-', a1 + ['-'] + (a2 + ['-'] + (a3 + ['-'] + a4)));
  }

  /** A fixed-width rendering never contains a hyphen. */
  lemma HexFixedNoHyphen(v: nat, w: nat)
    ensures '-' !in HexFixed(v, w)
  {
    HexFixedLower(v, w);
    assert '-' !in HexLower;
  }

  /** The five groups of `Format(u)` are exactly the five segments `Split` finds. */
  lemma FormatSplit(u: UuidV4)
    ensures Split(Format(u), '-') ==
      [HexFixed(Group0(u.bytes), 8), HexFixed(Group1(u.bytes), 4), HexFixed(Group2(u.bytes), 4),
       HexFixed(Group3(u.bytes), 4), HexFixed(Group4(u.bytes), 12)]
  {
    var b := u.bytes;
    HexFixedNoHyphen(Group0(b), 8);
    HexFixedNoHyphen(Group1(b), 4);
    HexFixedNoHyphen(Group2(b), 4);
    HexFixedNoHyphen(Group3(b), 4);
    HexFixedNoHyphen(Group4(b), 12);
    SplitFive(HexFixed(Group0(b), 8), HexFixed(Group1(b), 4), HexFixed(Group2(b), 4),
              HexFixed(Group3(b), 4), HexFixed(Group4(b), 12));
  }

  /** Laying the five group values out again restores the bytes they were read from. */
  lemma AssembleGroups(b: Bytes16)
    ensures Assemble(Group0(b), Group1(b), Group2(b), Group3(b), Group4(b)) == b
  {
    LeBytesOfValue(b[0..4]);
    LeBytesOfValue(b[4..6]);
    LeBytesOfValue(b[6..8]);
    LeBytesOfValue(b[8..10]);
    LeBytesOfValue(b[10..16]);
    Group4Value(b);
    LeBytesPrefix(Group4(b), 8, 6);
    assert b == b[0..4] + b[4..6] + b[6..8] + b[8..10] + b[10..16];
  }

  /** Each rendered group parses back to its value within its Rust integer type. */
  lemma ParseGroups(b: Bytes16)
    ensures ParseUnsigned(HexFixed(Group0(b), 8), U32Limit) == Some(Group0(b))
    ensures ParseUnsigned(HexFixed(Group1(b), 4), U16Limit) == Some(Group1(b))
    ensures ParseUnsigned(HexFixed(Group2(b), 4), U16Limit) == Some(Group2(b))
    ensures ParseUnsigned(HexFixed(Group3(b), 4), U16Limit) == Some(Group3(b))
    ensures ParseUnsigned(HexFixed(Group4(b), 12), U64Limit) == Some(Group4(b))
  {
    GroupBounds(b);
    ParseUnsignedHexFixed(Group0(b), 8, U32Limit);
    ParseUnsignedHexFixed(Group1(b), 4, U16Limit);
    ParseUnsignedHexFixed(Group2(b), 4, U16Limit);
    ParseUnsignedHexFixed(Group3(b), 4, U16Limit);
    ParseUnsignedHexFixed(Group4(b), 12, U64Limit);
  }

  /** Rendering then parsing gives back the identifier: `try_from(format(b)) == Ok(b)`. */
  lemma ParseFormat(u: UuidV4)
    ensures Parse(Format(u)) == Ok(u)
  {
    var b := u.bytes;
    FormatSplit(u);
    ParseGroups(b);
    AssembleGroups(b);
  }

  /** Distinct identifiers render differently. */
  lemma FormatInjective(u: UuidV4, v: UuidV4)
    requires Format(u) == Format(v)
    ensures u == v
  {
    ParseFormat(u);
    ParseFormat(v);
  }

  /** Where each group sits in the rendered text. */
  lemma FormatSlices(u: UuidV4)
    ensures var r, b := Format(u), u.bytes;
      && r[0..8] == HexFixed(Group0(b), 8) && r[9..13] == HexFixed(Group1(b), 4)
      && r[14..18] == HexFixed(Group2(b), 4) && r[19..23] == HexFixed(Group3(b), 4)
      && r[24..36] == HexFixed(Group4(b), 12)
  {
  }

  /** Each rendered group, read back as a number, is that group's value. */
  lemma FormatGroupValues(u: UuidV4)
    ensures var r, b := Format(u), u.bytes;
      && AllHex(r[0..8]) && HexValue(r[0..8]) == Group0(b)
      && AllHex(r[9..13]) && HexValue(r[9..13]) == Group1(b)
      && AllHex(r[14..18]) && HexValue(r[14..18]) == Group2(b)
      && AllHex(r[19..23]) && HexValue(r[19..23]) == Group3(b)
      && AllHex(r[24..36]) && HexValue(r[24..36]) == Group4(b)
  {
    var b := u.bytes;
    FormatSlices(u);
    GroupBounds(b);
    HexFixedValue(Group0(b), 8);
    HexFixedValue(Group1(b), 4);
    HexFixedValue(Group2(b), 4);
    HexFixedValue(Group3(b), 4);
    HexFixedValue(Group4(b), 12);
  }

  /** The group values are the little-endian readings of bytes 0..4, 4..6, 6..8, 8..10 and 10..16. */
  lemma GroupsLittleEndian(b: Bytes16)
    ensures Group0(b) == (b[0] as int) + 0x100 * (b[1] as int) + 0x1_0000 * (b[2] as int) + 0x100_0000 * (b[3] as int)
    ensures Group1(b) == (b[4] as int) + 0x100 * (b[5] as int)
    ensures Group2(b) == (b[6] as int) + 0x100 * (b[7] as int)
    ensures Group3(b) == (b[8] as int) + 0x100 * (b[9] as int)
    ensures Group4(b) == (b[10] as int) + 0x100 * (b[11] as int) + 0x1_0000 * (b[12] as int)
                         + 0x100_0000 * (b[13] as int) + 0x1_0000_0000 * (b[14] as int) + 0x100_0000_0000 * (b[15] as int)
  {
    LeValue4(b[0..4]);
    LeValue2(b[4..6]);
    LeValue2(b[6..8]);
    LeValue2(b[8..10]);
    Group4Value(b);
    LeValue6(b[10..16]);
  }

  lemma LeValue2(bs: seq<byte>)
    requires |bs| == 2
    ensures LeValue(bs) == (bs[0] as int) + 0x100 * (bs[1] as int)
  {
    assert LeValue(bs[1..][1..]) == 0;
  }

  lemma LeValue4(bs: seq<byte>)
    requires |bs| == 4
    ensures LeValue(bs) == (bs[0] as int) + 0x100 * (bs[1] as int) + 0x1_0000 * (bs[2] as int) + 0x100_0000 * (bs[3] as int)
  {
    LeValue2(bs[2..]);
    assert bs[1..][1..] == bs[2..];
  }

  lemma LeValue6(bs: seq<byte>)
    requires |bs| == 6
    ensures LeValue(bs) == (bs[0] as int) + 0x100 * (bs[1] as int) + 0x1_0000 * (bs[2] as int) + 0x100_0000 * (bs[3] as int)
                           + 0x1_0000_0000 * (bs[4] as int) + 0x100_0000_0000 * (bs[5] as int)
  {
    LeValue4(bs[2..]);
    assert bs[1..][1..] == bs[2..];
  }

  // ---------------------------------------------------------------------
  // What parsing accepts and rejects
  // ---------------------------------------------------------------------

  /** Every character of a joined text is the separator or a character of some part. */
  lemma {:induction false} JoinChars(parts: seq<string>, sep: char, c: char)
    requires |parts| >= 1 && c in Join(parts, sep)
    ensures c == sep || exists i :: 0 <= i < |parts| && c in parts[i]
  {
    if |parts| > 1 {
      if c !in parts[0] && c != sep {
        assert c in Join(parts[1..], sep);
        JoinChars(parts[1..], sep, c);
        var i :| 0 <= i < |parts[1..]| && c in parts[1..][i];
        assert c in parts[i + 1];
      }
    }
  }

  lemma ParseUnsignedAlphabet(seg: string, limit: nat, c: char)
    requires ParseUnsigned(seg, limit).Some? && c in seg
    ensures c == '+' || IsHexChar(c)
  {
    var digits := if |seg| > 0 && seg[0] == '+' then seg[1..] else seg;
    var k :| 0 <= k < |seg| && seg[k] == c;
    if |seg| > 0 && seg[0] == '+' && k > 0 {
      assert digits[k - 1] == c;
    }
  }

  /** A successful parse read every one of the five segments as a number. */
  lemma ParseOkSegments(s: string)
    requires Parse(s).Ok?
    ensures var seg := Split(s, '-');
      && |seg| == 5
      && ParseUnsigned(seg[0], U32Limit).Some? && ParseUnsigned(seg[1], U16Limit).Some?
      && ParseUnsigned(seg[2], U16Limit).Some? && ParseUnsigned(seg[3], U16Limit).Some?
      && ParseUnsigned(seg[4], U64Limit).Some?
  {
  }

  /** The bound segment `i` is read against: `u32` for the first, `u64` for the last, `u16` otherwise. */
  function SegmentLimit(i: nat): nat
  {
    if i == 0 then U32Limit else if i == 4 then U64Limit else U16Limit
  }

  /** A segment list all five of whose members read as numbers reads segment `i` below its bound. */
  lemma SegmentParsed(seg: seq<string>, i: nat)
    requires |seg| == 5 && i < 5
    requires ParseUnsigned(seg[0], U32Limit).Some? && ParseUnsigned(seg[1], U16Limit).Some?
    requires ParseUnsigned(seg[2], U16Limit).Some? && ParseUnsigned(seg[3], U16Limit).Some?
    requires ParseUnsigned(seg[4], U64Limit).Some?
    ensures ParseUnsigned(seg[i], SegmentLimit(i)).Some?
  {
    if i == 0 {
    } else if i == 4 {
    } else {
      assert SegmentLimit(i) == U16Limit;
    }
  }

  /**
   * Parsing fails on any text holding a character other than a hyphen, a
   * plus sign or a hex digit of either case.
   */
  lemma ParseRejectsForeignChar(s: string, c: char)
    requires c in s && c != '-' && c != '+' && !IsHexChar(c)
    ensures Parse(s) == Err(ParseError)
  {
    if Parse(s).Ok? {
      var seg := Split(s, '-');
      SplitJoin(s, '-');
      JoinChars(seg, '-', c);
      var i :| 0 <= i < |seg| && c in seg[i];
      ParseOkSegments(s);
      SegmentParsed(seg, i);
      ParseUnsignedAlphabet(seg[i], SegmentLimit(i), c);
    }
  }

  /** An empty segment (a leading, trailing or doubled hyphen) makes parsing fail. */
  lemma ParseRejectsEmptySegment(s: string, i: nat)
    requires i < |Split(s, '-')| && Split(s, '-')[i] == ""
    ensures Parse(s) == Err(ParseError)
  {
    if Parse(s).Ok? {
      ParseOkSegments(s);
      SegmentParsed(Split(s, '-'), i);
    }
  }

  /**
   * Group widths are not checked: five hyphen-free segments that
   * `from_str_radix` accepts for `u32`, `u16`, `u16`, `u16` and `u64`, of
   * any length, parse to the bytes their values lay out.
   */
  lemma ParseAnyWidth(a0: string, a1: string, a2: string, a3: string, a4: string)
    requires '-' !in a0 && '-' !in a1 && '-' !in a2 && '-' !in a3 && '-' !in a4
    requires ParseUnsigned(a0, U32Limit).Some? && ParseUnsigned(a1, U16Limit).Some?
    requires ParseUnsigned(a2, U16Limit).Some? && ParseUnsigned(a3, U16Limit).Some?
    requires ParseUnsigned(a4, U64Limit).Some?
    ensures Parse(a0 + "-" + a1 + "-" + a2 + "-" + a3 + "-" + a4) ==
      Ok(UuidV4(Assemble(ParseUnsigned(a0, U32Limit).value, ParseUnsigned(a1, U16Limit).value,
                         ParseUnsigned(a2, U16Limit).value, ParseUnsigned(a3, U16Limit).value,
                         ParseUnsigned(a4, U64Limit).value)))
  {
    SplitFive(a0, a1, a2, a3, a4);
  }

  /** Adding 256^n to a value does not change its `n` lowest bytes. */
  lemma {:induction false} LeBytesWrap(v: nat, n: nat)
    ensures LeBytes(v + Pow256(n), n) == LeBytes(v, n)
  {
    if n > 0 {
      var p := Pow256(n - 1);
      assert v + Pow256(n) == v + 256 * p;
      assert (v + 256 * p) % 256 == v % 256 && (v + 256 * p) / 256 == v / 256 + p;
      LeBytesWrap(v / 256, n - 1);
    }
  }

  /** Bytes above the sixth of the last group's value are dropped when laying it out. */
  lemma AssembleDropsHighBytes(b: Bytes16)
    ensures Assemble(Group0(b), Group1(b), Group2(b), Group3(b), Group4(b) + Pow256(6)) == b
  {
    LeBytesPrefix(Group4(b) + Pow256(6), 8, 6);
    LeBytesPrefix(Group4(b), 8, 6);
    LeBytesWrap(Group4(b), 6);
    AssembleGroups(b);
  }

  /** 2^48 more than the last group still fits 13 digits and a `u64`. */
  lemma WrappedGroupBounds(b: Bytes16)
    ensures Group4(b) + Pow256(6) < Pow16(13) && Group4(b) + Pow256(6) < U64Limit
  {
    Group4Value(b);
    Pow256Values();
    Pow16Even(6);
    assert Pow16(13) == 16 * Pow16(12);
  }

  /** The canonical text of `b` except that its last group is 2^48 larger, in 13 digits. */
  function WrappedText(b: Bytes16): (r: string)
    ensures |r| == 37
  {
    HexFixed(Group0(b), 8) + "-" + HexFixed(Group1(b), 4) + "-" + HexFixed(Group2(b), 4)
    + "-" + HexFixed(Group3(b), 4) + "-" + HexFixed(Group4(b) + Pow256(6), 13)
  }

  lemma ParseWrappedText(b: Bytes16)
    ensures Parse(WrappedText(b)) == Ok(UuidV4(b))
  {
    var v := Group4(b) + Pow256(6);
    WrappedGroupBounds(b);
    HexFixedNoHyphen(Group0(b), 8);
    HexFixedNoHyphen(Group1(b), 4);
    HexFixedNoHyphen(Group2(b), 4);
    HexFixedNoHyphen(Group3(b), 4);
    HexFixedNoHyphen(v, 13);
    ParseGroups(b);
    ParseUnsignedHexFixed(v, 13, U64Limit);
    ParseAnyWidth(HexFixed(Group0(b), 8), HexFixed(Group1(b), 4), HexFixed(Group2(b), 4),
                  HexFixed(Group3(b), 4), HexFixed(v, 13));
    AssembleDropsHighBytes(b);
  }

  /**
   * The last group is cut to its low six bytes: for every identifier, the
   * 37-character text whose last group is 2^48 more than the canonical one
   * (13 digits) parses to the same identifier.
   */
  lemma ParseTruncatesLastGroup(u: UuidV4)
    ensures WrappedText(u.bytes) != Format(u) && Parse(WrappedText(u.bytes)) == Ok(u)
  {
    assert |WrappedText(u.bytes)| != |Format(u)|;
    ParseWrappedText(u.bytes);
  }

  // ---------------------------------------------------------------------
  // The `Uuid` wrapper and its serde form
  // ---------------------------------------------------------------------

  /** `Display for Uuid` and `Serialize for Uuid`: the version-4 text. */
  function UuidText(u: Uuid): (r: string)
    ensures |r| == 36
    ensures forall i :: 0 <= i < 36 ==> (r[i] == '-' <==> i == 8 || i == 13 || i == 18 || i == 23)
    ensures forall i :: 0 <= i < 36 && r[i] != '-' ==> r[i] in HexLower
  {
    match u
    case V4(v4) => Format(v4)
  }

  /** `Deserialize for Uuid`: the text goes through `UuidV4::try_from`. */
  function ParseUuid(s: string): (r: Result<Uuid, ErrorKind>)
    ensures r.Ok? <==> Parse(s).Ok?
    ensures r.Ok? ==> r.value == V4(Parse(s).value)
  {
    match Parse(s)
    case Ok(v4) => Ok(V4(v4))
    case Err(e) => Err(e)
  }

  /** The serde round trip inherits the text round trip. */
  lemma UuidTextRoundTrip(u: Uuid)
    ensures ParseUuid(UuidText(u)) == Ok(u)
  {
    ParseFormat(u.v4);
  }

  lemma UuidTextInjective(u: Uuid, v: Uuid)
    requires UuidText(u) == UuidText(v)
    ensures u == v
  {
    UuidTextRoundTrip(u);
    UuidTextRoundTrip(v);
  }
}

=== FILE: directory.dfy ===
/**
 * The peer directory (src/peer/info.rs): the local identity, the map of
 * known peers, and the path it is saved to, with the insert-if-absent
 * lookup and the error classification of loading and saving.
 */
module Directory {
  import opened Wrappers
  import opened Crypto
  import opened Io
  import opened Serde
  import opened PeerRecord

  datatype PeerInfo = PeerInfo(id: Uuid, addr: SocketAddr, chatAddr: SocketAddr, peers: map<Uuid, Peer>, path: string)

  /** Every record is filed under its own id. */
  predicate WellKeyed(peers: map<Uuid, Peer>)
  {
    forall k :: k in peers ==> peers[k].id == k
  }

  /** Every record is `Consistent`. */
  predicate AllConsistent(peers: map<Uuid, Peer>)
  {
    forall k :: k in peers ==> Consistent(peers[k])
  }

  /** `PeerInfo::new`, with the random bytes of the fresh id passed in. */
  function NewInfo(rnd: Bytes16, addr: SocketAddr, chatAddr: SocketAddr, path: string): (info: PeerInfo)
    ensures info.peers == map[] && WellKeyed(info.peers)
    ensures info.addr == addr && info.chatAddr == chatAddr && info.path == path
    ensures IsVersion4(info.id.v4.bytes)
    ensures info.id == V4(NewV4(rnd))
  {
    PeerInfo(V4(NewV4(rnd)), addr, chatAddr, map[], path)
  }

  /** The directory after a lookup, and the record the lookup hands back. */
  datatype Entry = Entry(info: PeerInfo, peer: Peer)

  /**
   * `peer_or_insert`: the record under `id`, created from `Peer::new` with
   * the defaults when absent. The defaults matter only on first insertion.
   */
  function PeerOrInsert(info: PeerInfo, id: Uuid, defaultAddr: SocketAddr, defaultChatAddr: SocketAddr): (e: Entry)
    ensures e.info.id == info.id && e.info.addr == info.addr && e.info.chatAddr == info.chatAddr
    ensures e.info.path == info.path
    ensures e.info.peers.Keys == info.peers.Keys + {id}
    ensures id in e.info.peers && e.peer == e.info.peers[id]
    ensures forall k :: k in info.peers ==> e.info.peers[k] == info.peers[k]
    ensures id !in info.peers ==> e.peer == NewPeer(id, defaultAddr, defaultChatAddr)
  {
    if id in info.peers then Entry(info, info.peers[id])
    else
      var p := NewPeer(id, defaultAddr, defaultChatAddr);
      Entry(info.(peers := info.peers[id := p]), p)
  }

  /** A second lookup of the same id, with any defaults, changes nothing and returns the same record. */
  lemma PeerOrInsertIdempotent(info: PeerInfo, id: Uuid, a1: SocketAddr, c1: SocketAddr, a2: SocketAddr, c2: SocketAddr)
    ensures var first := PeerOrInsert(info, id, a1, c1);
      var second := PeerOrInsert(first.info, id, a2, c2);
      second == first
  {
  }

  /** A known id gives back the stored record and leaves the directory as it was. */
  lemma PeerOrInsertKnown(info: PeerInfo, id: Uuid, a: SocketAddr, c: SocketAddr)
    requires id in info.peers
    ensures PeerOrInsert(info, id, a, c) == Entry(info, info.peers[id])
  {
  }

  /** Lookups keep every record filed under its own id and every record consistent. */
  lemma PeerOrInsertKeepsInvariants(info: PeerInfo, id: Uuid, a: SocketAddr, c: SocketAddr)
    requires WellKeyed(info.peers) && AllConsistent(info.peers)
    ensures WellKeyed(PeerOrInsert(info, id, a, c).info.peers)
    ensures AllConsistent(PeerOrInsert(info, id, a, c).info.peers)
  {
  }

  /**
   * Replacing the record under `id`: the map the handshakes leave behind
   * once they have changed the record `peer_or_insert` handed them.
   */
  function Store(info: PeerInfo, id: Uuid, p: Peer): (r: PeerInfo)
    ensures r.id == info.id && r.addr == info.addr && r.chatAddr == info.chatAddr && r.path == info.path
    ensures r.peers.Keys == info.peers.Keys + {id} && r.peers[id] == p
    ensures forall k :: k in info.peers && k != id ==> r.peers[k] == info.peers[k]
  {
    info.(peers := info.peers[id := p])
  }

  /**
   * The change a successful handshake makes: insert the peer if unseen,
   * then mark it online and seen at `now`.
   */
  function Touch(info: PeerInfo, id: Uuid, defaultAddr: SocketAddr, defaultChatAddr: SocketAddr, now: Time): (r: PeerInfo)
    ensures id in r.peers && r.peers[id].status == Online && r.peers[id].lastSeen == Some(now)
  {
    var e := PeerOrInsert(info, id, defaultAddr, defaultChatAddr);
    Store(e.info, id, MarkSeen(e.peer, now))
  }

  /**
   * What a handshake does to the directory: only the record under `id`
   * changes; its addresses are the stored ones when the peer was known and
   * the offered ones otherwise; the local identity is untouched.
   */
  lemma TouchEffect(info: PeerInfo, id: Uuid, a: SocketAddr, c: SocketAddr, now: Time)
    ensures var r := Touch(info, id, a, c, now);
      && r.id == info.id && r.addr == info.addr && r.chatAddr == info.chatAddr && r.path == info.path
      && r.peers.Keys == info.peers.Keys + {id}
      && (forall k :: k in info.peers && k != id ==> r.peers[k] == info.peers[k])
      && (id in info.peers ==> r.peers[id].addr == info.peers[id].addr && r.peers[id].chatAddr == info.peers[id].chatAddr
                               && r.peers[id].id == info.peers[id].id)
      && (id !in info.peers ==> r.peers[id] == Peer(id, a, c, Online, Some(now)))
  {
  }

  lemma TouchKeepsInvariants(info: PeerInfo, id: Uuid, a: SocketAddr, c: SocketAddr, now: Time)
    requires WellKeyed(info.peers) && AllConsistent(info.peers)
    ensures WellKeyed(Touch(info, id, a, c, now).peers) && AllConsistent(Touch(info, id, a, c, now).peers)
  {
    PeerOrInsertKeepsInvariants(info, id, a, c);
  }

  // ---------------------------------------------------------------------
  // Loading and saving
  // ---------------------------------------------------------------------

  datatype ErrorKind = FileNotFound | ReadError | WriteError | InvalidData

  /** What `read_to_string` on the path returned. */
  datatype FileRead = Contents(text: string) | ReadFailed(kind: IoKind)

  /**
   * `PeerInfo::load`: a missing file is `FileNotFound`, any other read error
   * `ReadError`, and text that does not parse `InvalidData`.
   */
  function Load(read: FileRead, file: Codec<PeerInfo, char>): (r: Result<PeerInfo, ErrorKind>)
    ensures r.Ok? ==> read.Contents? && file.decode(read.text) == Some(r.value)
    ensures r == Err(FileNotFound) <==> read == ReadFailed(NotFound)
    ensures r == Err(ReadError) <==> read.ReadFailed? && read.kind != NotFound
    ensures r == Err(ErrorKind.InvalidData) <==> read.Contents? && file.decode(read.text).None?
    ensures read.Contents? && file.decode(read.text).Some? ==> r == Ok(file.decode(read.text).value)
  {
    match read
    case ReadFailed(NotFound) => Err(FileNotFound)
    case ReadFailed(_) => Err(ReadError)
    case Contents(text) =>
      match file.decode(text)
      case None => Err(ErrorKind.InvalidData)
      case Some(info) => Ok(info)
  }

  /** The file-system calls `save` makes, in order. */
  datatype FsCall = CreateParentDirs | WriteFile(text: string)

  /**
   * How the file system answers: whether the path has a parent directory,
   * how `create_dir_all` of it ends, and how the write ends.
   */
  datatype Fs = Fs(hasParent: bool, createDirs: IoOutcome, write: IoOutcome)

  datatype SaveRun = SaveRun(calls: seq<FsCall>, result: Result<PeerInfo, ErrorKind>)

  /**
   * `PeerInfo::save`: create the parent directories (failure is
   * `WriteError`), serialize the whole directory (failure is `InvalidData`),
   * then overwrite the file (failure is `WriteError`). On success the result
   * carries the directory that was written.
   */
  function Save(info: PeerInfo, file: Codec<PeerInfo, char>, fs: Fs): (r: SaveRun)
    ensures r.result.Ok? ==> r.result.value == info
    ensures r.result.Ok? ==> file.encode(info).Some? && |r.calls| > 0
                             && r.calls[|r.calls| - 1] == WriteFile(file.encode(info).value)
    ensures r.result.Err? ==> r.result.error == WriteError || r.result.error == ErrorKind.InvalidData
    ensures r.result == Err(ErrorKind.InvalidData) ==> forall i :: 0 <= i < |r.calls| ==> !r.calls[i].WriteFile?
  {
    var dirs := if fs.hasParent then [CreateParentDirs] else [];
    if fs.hasParent && fs.createDirs.Failed? then SaveRun(dirs, Err(WriteError))
    else
      match file.encode(info)
      case None => SaveRun(dirs, Err(ErrorKind.InvalidData))
      case Some(text) =>
        var calls := dirs + [WriteFile(text)];
        match fs.write
        case Done => SaveRun(calls, Ok(info))
        case Failed(_) => SaveRun(calls, Err(WriteError))
  }

  /** The directories are created before anything is written, and a failure there writes nothing. */
  lemma SaveCreatesDirsFirst(info: PeerInfo, file: Codec<PeerInfo, char>, fs: Fs)
    ensures var r := Save(info, file, fs);
      && (forall i :: 0 <= i < |r.calls| && r.calls[i].WriteFile? ==> i == |r.calls| - 1)
      && (fs.hasParent ==> |r.calls| > 0 && r.calls[0] == CreateParentDirs)
      && (fs.hasParent && fs.createDirs.Failed? ==> r.calls == [CreateParentDirs] && r.result == Err(WriteError))
  {
  }

  /** Which failure `save` reports. */
  lemma SaveErrors(info: PeerInfo, file: Codec<PeerInfo, char>, fs: Fs)
    ensures var r := Save(info, file, fs);
      && (r.result == Err(ErrorKind.InvalidData) <==> (!fs.hasParent || fs.createDirs.Done?) && file.encode(info).None?)
      && (r.result == Err(WriteError) <==>
            (fs.hasParent && fs.createDirs.Failed?)
            || ((!fs.hasParent || fs.createDirs.Done?) && file.encode(info).Some? && fs.write.Failed?))
  {
  }

  /** What a successful save wrote loads back as the same directory. */
  lemma SaveLoadRoundTrip(info: PeerInfo, file: Codec<PeerInfo, char>, fs: Fs)
    requires Lawful(file) && Save(info, file, fs).result.Ok?
    ensures var r := Save(info, file, fs);
      |r.calls| > 0 && r.calls[|r.calls| - 1].WriteFile?
      && Load(Contents(r.calls[|r.calls| - 1].text), file) == Ok(info)
  {
  }
}

=== FILE: io.dfy ===
/**
 * The abstract outcomes that stand in for sockets and files. The model never
 * performs I/O: every read, write, connect or directory creation is an input
 * saying what that call returned.
 */
module Io {
  import opened Crypto

  /** A socket address (IP and port). Its text form is not part of this model. */
  datatype SocketAddr = SocketAddr(ip: seq<byte>, port: nat)

  /** The `std::io::ErrorKind` values the core inspects; every other kind is `Other`. */
  datatype IoKind = NotFound | ConnectionAborted | InvalidData | Other

  /** How one write, connect or directory creation ended. */
  datatype IoOutcome = Done | Failed(kind: IoKind)
}

=== FILE: peer.dfy ===
/** One known peer (src/peer/mod.rs): its addresses, its status and when it was last seen. */
module PeerRecord {
  import opened Wrappers
  import opened Crypto
  import opened Io

  datatype Status = Online | Offline

  /** `Status::default()`: the `#[default]` variant is `Online`. */
  function DefaultStatus(): (s: Status)
    ensures StatusName(s) == "online"
  {
    Online
  }

  /** The name `Display` prints, which is also the `#[serde(rename)]` name. */
  function StatusName(s: Status): (r: string)
    ensures r == "online" || r == "offline"
    ensures r == "online" <==> s == Online
  {
    match s
    case Online => "online"
    case Offline => "offline"
  }

  /** Deserializing a `Status` from its serde name. */
  function ParseStatus(t: string): (r: Option<Status>)
    ensures r.Some? ==> StatusName(r.value) == t
  {
    if t == "online" then Some(Online)
    else if t == "offline" then Some(Offline)
    else None
  }

  /** The two names differ, and each parses back to its status. */
  lemma StatusNameRoundTrip(s: Status)
    ensures ParseStatus(StatusName(s)) == Some(s)
  {
  }

  /** Time is whole seconds on an abstract clock. */
  type Time = nat

  datatype Peer = Peer(id: Uuid, addr: SocketAddr, chatAddr: SocketAddr, status: Status, lastSeen: Option<Time>)

  /**
   * Online peers, and only they, carry a last-seen time: every record the
   * core creates or touches keeps this.
   */
  predicate Consistent(p: Peer)
  {
    p.status == Online <==> p.lastSeen.Some?
  }

  /** `Peer::new`: a record that has never been seen. */
  function NewPeer(id: Uuid, addr: SocketAddr, chatAddr: SocketAddr): (p: Peer)
    ensures p.id == id && p.addr == addr && p.chatAddr == chatAddr
    ensures p.status == Offline && p.lastSeen.None?
    ensures Consistent(p)
  {
    Peer(id, addr, chatAddr, Offline, None)
  }

  /**
   * What both handshakes do to the record they obtained: `status = Online`
   * and `last_seen = now`; identity and addresses are left alone.
   */
  function MarkSeen(p: Peer, now: Time): (q: Peer)
    ensures Consistent(q) && q.status == Online && q.lastSeen == Some(now)
    ensures q.id == p.id && q.addr == p.addr && q.chatAddr == p.chatAddr
  {
    p.(status := Online, lastSeen := Some(now))
  }
}

=== FILE: serde.dfy ===
/**
 * The text syntax of serialized data (serde_json) is not modelled byte by
 * byte. A `Codec` pairs a serializer that may fail with a parser that may
 * reject, and `Lawful` states the two facts the core relies on.
 */
module Serde {
  import opened Wrappers

  datatype Codec<!T, !E> = Codec(encode: T -> Option<seq<E>>, decode: seq<E> -> Option<T>)

  /**
   * What serde_json guarantees for the documents of this core: an encoding
   * is never empty, it parses back to the value it came from, and no proper
   * prefix of it parses (the closing brace is missing).
   */
  ghost predicate Lawful<T(!new), E>(c: Codec<T, E>)
  {
    && (forall x :: c.encode(x).Some? ==> |c.encode(x).value| > 0)
    && (forall x :: c.encode(x).Some? ==> c.decode(c.encode(x).value) == Some(x))
    && (forall x, k :: c.encode(x).Some? && 0 <= k < |c.encode(x).value| ==> c.decode(c.encode(x).value[..k]).None?)
  }
}

=== FILE: server.dfy ===
/**
 * The discovery server (src/rpc/server.rs). Every accepted connection loops
 * forever reading requests; each Ping is answered with a Pong and, once the
 * Pong is out, recorded in the shared directory, which is then saved. The
 * mutex around the directory makes each handshake one atomic step, so the
 * server's life is a sequence of such steps over one directory, whatever
 * connections they come from.
 */
module Server {
  import opened Wrappers
  import opened Crypto
  import opened Io
  import opened Serde
  import opened Wire
  import opened PeerRecord
  import opened Directory

  /** How the world answers one handshake: the Pong write, the clock, and the file system. */
  datatype PingEnv = PingEnv(pongSink: IoOutcome, now: Time, fs: Fs)

  /**
   * The result of one handshake: the directory afterwards, the Pong that was
   * offered, and the save attempt (`None` when nothing was saved).
   */
  datatype PingStep = PingStep(info: PeerInfo, reply: Pong, save: Option<SaveRun>)

  /** The Pong the server answers with: its own id and chat address. */
  function PongFor(info: PeerInfo): (p: Pong)
    ensures p.peerId == info.id && p.peerChatAddr == info.chatAddr
  {
    Pong(info.id, info.chatAddr)
  }

  /**
   * `handle_ping`: answer with a Pong; if that write fails, stop with the
   * directory untouched. Otherwise record the requester online and seen now,
   * seeding a new record from the Ping's addresses, and save; a failed save
   * is only logged, and the updated directory stays in memory.
   */
  function HandlePing(info: PeerInfo, req: Ping, env: PingEnv, json: Codec<Doc, byte>, file: Codec<PeerInfo, char>): (r: PingStep)
    ensures r.reply == PongFor(info)
    ensures WriteReq(PongReq(r.reply), json, env.pongSink).Err? ==> r.info == info && r.save.None?
    ensures WriteReq(PongReq(r.reply), json, env.pongSink).Ok? ==>
      r.save.Some? && r.info == Touch(info, req.peerId, req.peerAddr, req.peerChatAddr, env.now)
    ensures r.save.Some? ==> r.save.value == Save(r.info, file, env.fs)
  {
    var pong := PongFor(info);
    match WriteReq(PongReq(pong), json, env.pongSink)
    case Err(_) => PingStep(info, pong, None)
    case Ok(_) =>
      var updated := Touch(info, req.peerId, req.peerAddr, req.peerChatAddr, env.now);
      PingStep(updated, pong, Some(Save(updated, file, env.fs)))
  }

  /** One read on some connection, and how the world answers if it turns out to be a Ping. */
  datatype Event = Event(read: RawRead, env: PingEnv)

  /** The Ping a read delivers, if it delivers one. */
  function PingOf(e: Event, json: Codec<Doc, byte>): Option<Ping>
  {
    match ReadReq(e.read, ReadCap, json)
    case Ok(PingReq(p)) => Some(p)
    case _ => None
  }

  /** One turn of the `handle` loop: only a Ping changes anything. */
  function Step(info: PeerInfo, e: Event, json: Codec<Doc, byte>, file: Codec<PeerInfo, char>): (r: PeerInfo)
    ensures r.id == info.id && r.addr == info.addr && r.chatAddr == info.chatAddr && r.path == info.path
    ensures info.peers.Keys <= r.peers.Keys
    ensures PingOf(e, json).None? ==> r == info
    ensures PingOf(e, json).Some? ==> r == HandlePing(info, PingOf(e, json).value, e.env, json, file).info
    ensures PingOf(e, json).Some? && WriteReq(PongReq(PongFor(info)), json, e.env.pongSink).Ok? ==>
      r == Touch(info, PingOf(e, json).value.peerId, PingOf(e, json).value.peerAddr,
                 PingOf(e, json).value.peerChatAddr, e.env.now)
    ensures PingOf(e, json).Some? && WriteReq(PongReq(PongFor(info)), json, e.env.pongSink).Err? ==> r == info
  {
    match PingOf(e, json)
    case Some(p) =>
      TouchEffect(info, p.peerId, p.peerAddr, p.peerChatAddr, e.env.now);
      HandlePing(info, p, e.env, json, file).info
    case None => info
  }

  /**
   * `handle`, over the reads of all connections in the order the lock
   * served them: a read that is not a Ping (another request, a decode
   * failure, an aborted or failed read) is skipped and the loop reads again.
   * The local identity never changes and no record is ever removed.
   */
  function Serve(info: PeerInfo, events: seq<Event>, json: Codec<Doc, byte>, file: Codec<PeerInfo, char>): (r: PeerInfo)
    ensures r.id == info.id && r.addr == info.addr && r.chatAddr == info.chatAddr && r.path == info.path
    ensures info.peers.Keys <= r.peers.Keys
    decreases |events|
  {
    if |events| == 0 then info
    else Serve(Step(info, events[0], json, file), events[1..], json, file)
  }

  // ---------------------------------------------------------------------
  // Properties
  // ---------------------------------------------------------------------

  /** The events that carry a Ping, in order. */
  function Pings(events: seq<Event>, json: Codec<Doc, byte>): (r: seq<Event>)
    ensures |r| <= |events|
    ensures forall i :: 0 <= i < |r| ==> PingOf(r[i], json).Some?
  {
    if |events| == 0 then []
    else if PingOf(events[0], json).Some? then [events[0]] + Pings(events[1..], json)
    else Pings(events[1..], json)
  }

  /**
   * Reads that are not Pings, including garbage and aborted connections,
   * leave no trace: serving everything equals serving the Pings alone.
   */
  lemma {:induction false} ServeSkipsNonPings(info: PeerInfo, events: seq<Event>, json: Codec<Doc, byte>, file: Codec<PeerInfo, char>)
    ensures Serve(info, events, json, file) == Serve(info, Pings(events, json), json, file)
    decreases |events|
  {
    if |events| > 0 {
      var next := Step(info, events[0], json, file);
      ServeSkipsNonPings(next, events[1..], json, file);
      if PingOf(events[0], json).Some? {
        var ps := Pings(events, json);
        assert ps[0] == events[0] && ps[1..] == Pings(events[1..], json);
      }
    }
  }

  /** A malformed payload neither stops the server nor changes what later requests do. */
  lemma MalformedPayloadHarmless(info: PeerInfo, bad: seq<byte>, env: PingEnv, rest: seq<Event>,
                                 json: Codec<Doc, byte>, file: Codec<PeerInfo, char>)
    requires |bad| > 0 && json.decode(Frame(bad, ReadCap)).None?
    ensures Serve(info, [Event(Received(bad), env)] + rest, json, file) == Serve(info, rest, json, file)
  {
    assert ([Event(Received(bad), env)] + rest)[1..] == rest;
  }

  lemma StepKeepsInvariants(info: PeerInfo, e: Event, json: Codec<Doc, byte>, file: Codec<PeerInfo, char>)
    requires WellKeyed(info.peers) && AllConsistent(info.peers)
    ensures WellKeyed(Step(info, e, json, file).peers) && AllConsistent(Step(info, e, json, file).peers)
  {
    if PingOf(e, json).Some? {
      var p := PingOf(e, json).value;
      TouchKeepsInvariants(info, p.peerId, p.peerAddr, p.peerChatAddr, e.env.now);
    }
  }

  /** Every handshake keeps each record under its own id and each record consistent. */
  lemma {:induction false} ServeKeepsInvariants(info: PeerInfo, events: seq<Event>, json: Codec<Doc, byte>, file: Codec<PeerInfo, char>)
    requires WellKeyed(info.peers) && AllConsistent(info.peers)
    ensures WellKeyed(Serve(info, events, json, file).peers) && AllConsistent(Serve(info, events, json, file).peers)
    decreases |events|
  {
    if |events| > 0 {
      StepKeepsInvariants(info, events[0], json, file);
      ServeKeepsInvariants(Step(info, events[0], json, file), events[1..], json, file);
    }
  }

  /**
   * After a delivered Pong the requester is online and seen now; a known
   * requester keeps its stored addresses, an unseen one is recorded with the
   * Ping's; nobody else's record changes.
   */
  lemma HandshakeRecordsRequester(info: PeerInfo, req: Ping, env: PingEnv, json: Codec<Doc, byte>, file: Codec<PeerInfo, char>)
    requires WriteReq(PongReq(PongFor(info)), json, env.pongSink).Ok?
    ensures var r := HandlePing(info, req, env, json, file).info;
      && req.peerId in r.peers
      && r.peers[req.peerId].status == Online && r.peers[req.peerId].lastSeen == Some(env.now)
      && (req.peerId in info.peers ==> r.peers[req.peerId].addr == info.peers[req.peerId].addr
                                       && r.peers[req.peerId].chatAddr == info.peers[req.peerId].chatAddr)
      && (req.peerId !in info.peers ==> r.peers[req.peerId].addr == req.peerAddr
                                        && r.peers[req.peerId].chatAddr == req.peerChatAddr)
      && (forall k :: k in info.peers && k != req.peerId ==> r.peers[k] == info.peers[k])
  {
    TouchEffect(info, req.peerId, req.peerAddr, req.peerChatAddr, env.now);
  }

  /** How the save ends makes no difference to the directory the server goes on with. */
  lemma SaveFailureNotFatal(info: PeerInfo, req: Ping, env: PingEnv, fs: Fs, json: Codec<Doc, byte>, file: Codec<PeerInfo, char>)
    ensures HandlePing(info, req, env, json, file).info == HandlePing(info, req, env.(fs := fs), json, file).info
  {
  }

  /** Nothing stops a Ping carrying the server's own id from filing the server among its peers. */
  lemma OwnIdCanBecomePeer(info: PeerInfo, env: PingEnv, json: Codec<Doc, byte>, file: Codec<PeerInfo, char>)
    requires WriteReq(PongReq(PongFor(info)), json, env.pongSink).Ok?
    ensures info.id in HandlePing(info, Ping(info.id, info.addr, info.chatAddr), env, json, file).info.peers
  {
  }
}

=== FILE: wire.dfy ===
/**
 * The request protocol (src/rpc/request.rs): a closed union of three
 * requests told apart by a `method` tag, sent as one JSON object per write
 * and read back as whatever a single read of at most `cap` bytes returns.
 *
 * A JSON object is modelled as a `Doc`, a map from field name to value; the
 * byte syntax of that object is the `Codec` parameter `json`.
 */
module Wire {
  import opened Wrappers
  import opened Crypto
  import opened Io
  import opened Serde

  datatype Ping = Ping(peerId: Uuid, peerAddr: SocketAddr, peerChatAddr: SocketAddr)
  datatype Pong = Pong(peerId: Uuid, peerChatAddr: SocketAddr)
  datatype Message = Message(peerId: Uuid, text: string)

  /** `Request`; `PingReq`, `PongReq` and `MessageReq` are the three `From` conversions. */
  datatype Request = PingReq(ping: Ping) | PongReq(pong: Pong) | MessageReq(msg: Message)

  /** A JSON field value: every field here is a string; socket addresses keep their structure. */
  datatype Field = Str(s: string) | Addr(addr: SocketAddr)

  /** One JSON object, keyed by field name. */
  type Doc = map<string, Field>

  /** The buffer size every reader of the core passes to `read_req`. */
  const ReadCap: nat := 1024

  /** The `#[serde(rename)]` discriminator of each variant. */
  function Tag(r: Request): string
  {
    match r
    case PingReq(_) => "ping"
    case PongReq(_) => "pong"
    case MessageReq(_) => "message"
  }

  /** The object `#[serde(tag = "method")]` produces: the tag beside the variant's fields. */
  function ToDoc(r: Request): (d: Doc)
    ensures "method" in d && d["method"] == Str(Tag(r))
    ensures "peer_id" in d && d["peer_id"].Str?
  {
    match r
    case PingReq(p) =>
      map["method" := Str("ping"), "peer_id" := Str(UuidText(p.peerId)),
          "peer_addr" := Addr(p.peerAddr), "peer_chat_addr" := Addr(p.peerChatAddr)]
    case PongReq(p) =>
      map["method" := Str("pong"), "peer_id" := Str(UuidText(p.peerId)),
          "peer_chat_addr" := Addr(p.peerChatAddr)]
    case MessageReq(m) =>
      map["method" := Str("message"), "peer_id" := Str(UuidText(m.peerId)), "text" := Str(m.text)]
  }

  /** A `Uuid` field: a string that `UuidV4::try_from` accepts. */
  function IdField(d: Doc, key: string): Option<Uuid>
  {
    if key in d && d[key].Str? then
      match ParseUuid(d[key].s)
      case Ok(u) => Some(u)
      case Err(_) => None
    else None
  }

  function AddrField(d: Doc, key: string): Option<SocketAddr>
  {
    if key in d && d[key].Addr? then Some(d[key].addr) else None
  }

  function StrField(d: Doc, key: string): Option<string>
  {
    if key in d && d[key].Str? then Some(d[key].s) else None
  }

  /**
   * Deserializing a `Request`: the `method` field picks the variant, whose
   * fields must all be present and well formed; an unknown tag is rejected
   * and fields no variant names are ignored.
   */
  function FromDoc(d: Doc): (r: Option<Request>)
    ensures r.Some? ==> "method" in d && d["method"] == Str(Tag(r.value))
  {
    var tag := StrField(d, "method");
    var id := IdField(d, "peer_id");
    if tag == Some("ping") then
      var addr := AddrField(d, "peer_addr");
      var chat := AddrField(d, "peer_chat_addr");
      if id.Some? && addr.Some? && chat.Some? then Some(PingReq(Ping(id.value, addr.value, chat.value))) else None
    else if tag == Some("pong") then
      var chat := AddrField(d, "peer_chat_addr");
      if id.Some? && chat.Some? then Some(PongReq(Pong(id.value, chat.value))) else None
    else if tag == Some("message") then
      var text := StrField(d, "text");
      if id.Some? && text.Some? then Some(MessageReq(Message(id.value, text.value))) else None
    else None
  }

  /** A `ping` document is read exactly as its three fields, each present and well formed. */
  lemma FromDocPing(d: Doc, p: Ping)
    ensures FromDoc(d) == Some(PingReq(p)) <==>
      && StrField(d, "method") == Some("ping") && IdField(d, "peer_id") == Some(p.peerId)
      && AddrField(d, "peer_addr") == Some(p.peerAddr) && AddrField(d, "peer_chat_addr") == Some(p.peerChatAddr)
  {
  }

  /** A `pong` document is read exactly as its two fields, each present and well formed. */
  lemma FromDocPong(d: Doc, p: Pong)
    ensures FromDoc(d) == Some(PongReq(p)) <==>
      && StrField(d, "method") == Some("pong") && IdField(d, "peer_id") == Some(p.peerId)
      && AddrField(d, "peer_chat_addr") == Some(p.peerChatAddr)
  {
  }

  /** A `message` document is read exactly as its two fields, each present and well formed. */
  lemma FromDocMessage(d: Doc, m: Message)
    ensures FromDoc(d) == Some(MessageReq(m)) <==>
      && StrField(d, "method") == Some("message") && IdField(d, "peer_id") == Some(m.peerId)
      && StrField(d, "text") == Some(m.text)
  {
  }

  /** Under a known tag, a missing or ill-typed field of that variant makes the document no request. */
  lemma FromDocNeedsFields(d: Doc)
    ensures StrField(d, "method") == Some("ping") ==>
      (FromDoc(d).Some? <==> IdField(d, "peer_id").Some? && AddrField(d, "peer_addr").Some? && AddrField(d, "peer_chat_addr").Some?)
    ensures StrField(d, "method") == Some("pong") ==>
      (FromDoc(d).Some? <==> IdField(d, "peer_id").Some? && AddrField(d, "peer_chat_addr").Some?)
    ensures StrField(d, "method") == Some("message") ==>
      (FromDoc(d).Some? <==> IdField(d, "peer_id").Some? && StrField(d, "text").Some?)
  {
  }

  /** What one `read` call on the stream returned: the bytes it could deliver, or an error. */
  datatype RawRead = Received(bytes: seq<byte>) | ReadFailed(kind: IoKind)

  /** The bytes one read hands over: the first `cap` of what arrived, or all of it if fewer. */
  function Frame(bytes: seq<byte>, cap: nat): seq<byte>
  {
    bytes[..if |bytes| <= cap then |bytes| else cap]
  }

  /** The request a frame carries: its JSON document, read as a request. */
  function DecodeReq(frame: seq<byte>, json: Codec<Doc, byte>): Option<Request>
  {
    match json.decode(frame)
    case None => None
    case Some(d) => FromDoc(d)
  }

  /**
   * `read_req(cap)`: one read into a `cap`-byte buffer. Nothing read means
   * the peer went away; otherwise the first `n <= cap` bytes are taken as one
   * whole request, and any failure to decode them is `InvalidData`.
   */
  function ReadReq(raw: RawRead, cap: nat, json: Codec<Doc, byte>): (r: Result<Request, IoKind>)
    ensures raw.Received? && r.Ok? ==> 0 < |raw.bytes| && 0 < cap
    ensures raw.Received? && r.Err? ==> r.error == ConnectionAborted || r.error == InvalidData
    ensures raw.ReadFailed? ==> r == Err(raw.kind)
    ensures raw.Received? && |Frame(raw.bytes, cap)| == 0 ==> r == Err(ConnectionAborted)
    ensures raw.Received? && |Frame(raw.bytes, cap)| > 0 ==>
      (r == Err(InvalidData) <==> DecodeReq(Frame(raw.bytes, cap), json).None?)
    ensures r.Ok? ==> raw.Received? && DecodeReq(Frame(raw.bytes, cap), json) == Some(r.value)
    ensures raw.Received? && |Frame(raw.bytes, cap)| > 0 && DecodeReq(Frame(raw.bytes, cap), json).Some? ==>
      r == Ok(DecodeReq(Frame(raw.bytes, cap), json).value)
  {
    match raw
    case ReadFailed(kind) => Err(kind)
    case Received(bytes) =>
      var frame := Frame(bytes, cap);
      if |frame| == 0 then Err(ConnectionAborted)
      else
        match DecodeReq(frame, json)
        case None => Err(InvalidData)
        case Some(req) => Ok(req)
  }

  /**
   * `write_req`: serialize the request and write all of it. `sink` is how
   * the write itself ended; a serialization failure is `InvalidData` and
   * writes nothing. On success the result is the bytes that went out.
   */
  function WriteReq(req: Request, json: Codec<Doc, byte>, sink: IoOutcome): (r: Result<seq<byte>, IoKind>)
    ensures r.Ok? ==> json.encode(ToDoc(req)) == Some(r.value) && sink == Done
    ensures json.encode(ToDoc(req)).Some? && sink == Done ==> r == Ok(json.encode(ToDoc(req)).value)
    ensures json.encode(ToDoc(req)).None? ==> r == Err(InvalidData)
    ensures json.encode(ToDoc(req)).Some? && sink.Failed? ==> r == Err(sink.kind)
  {
    match json.encode(ToDoc(req))
    case None => Err(InvalidData)
    case Some(bytes) =>
      match sink
      case Done => Ok(bytes)
      case Failed(kind) => Err(kind)
  }

  // ---------------------------------------------------------------------
  // Properties
  // ---------------------------------------------------------------------

  /** The three tags are distinct: the tag alone tells the variant. */
  lemma TagsDistinct(a: Request, b: Request)
    ensures Tag(a) == Tag(b) <==> (a.PingReq? && b.PingReq?) || (a.PongReq? && b.PongReq?) || (a.MessageReq? && b.MessageReq?)
  {
  }

  /** An identifier field holding an identifier's text reads back as that identifier. */
  lemma IdFieldOfText(d: Doc, key: string, id: Uuid)
    requires key in d && d[key] == Str(UuidText(id))
    ensures IdField(d, key) == Some(id)
  {
    UuidTextRoundTrip(id);
  }

  lemma PingDocRoundTrip(p: Ping)
    ensures FromDoc(ToDoc(PingReq(p))) == Some(PingReq(p))
  {
    var d := ToDoc(PingReq(p));
    IdFieldOfText(d, "peer_id", p.peerId);
    assert StrField(d, "method") == Some("ping");
    assert AddrField(d, "peer_addr") == Some(p.peerAddr);
    assert AddrField(d, "peer_chat_addr") == Some(p.peerChatAddr);
  }

  lemma PongDocRoundTrip(p: Pong)
    ensures FromDoc(ToDoc(PongReq(p))) == Some(PongReq(p))
  {
    var d := ToDoc(PongReq(p));
    IdFieldOfText(d, "peer_id", p.peerId);
    assert StrField(d, "method") == Some("pong");
    assert "pong" != "ping";
    assert AddrField(d, "peer_chat_addr") == Some(p.peerChatAddr);
  }

  lemma MessageDocRoundTrip(m: Message)
    ensures FromDoc(ToDoc(MessageReq(m))) == Some(MessageReq(m))
  {
    var d := ToDoc(MessageReq(m));
    IdFieldOfText(d, "peer_id", m.peerId);
    assert StrField(d, "method") == Some("message");
    assert "message" != "ping" && "message" != "pong";
    assert StrField(d, "text") == Some(m.text);
  }

  /** Decoding the object of any request gives the request back. */
  lemma DocRoundTrip(r: Request)
    ensures FromDoc(ToDoc(r)) == Some(r)
  {
    match r
    case PingReq(p) => PingDocRoundTrip(p);
    case PongReq(p) => PongDocRoundTrip(p);
    case MessageReq(m) => MessageDocRoundTrip(m);
  }

  /** The field names any variant reads. */
  predicate KnownField(k: string)
  {
    k == "method" || k == "peer_id" || k == "peer_addr" || k == "peer_chat_addr" || k == "text"
  }

  /** Fields no variant names do not affect decoding. */
  lemma FromDocIgnoresUnknownFields(d: Doc, k: string, v: Field)
    requires !KnownField(k)
    ensures FromDoc(d[k := v]) == FromDoc(d)
  {
    var e := d[k := v];
    assert StrField(e, "method") == StrField(d, "method");
    assert IdField(e, "peer_id") == IdField(d, "peer_id");
    assert AddrField(e, "peer_addr") == AddrField(d, "peer_addr");
    assert AddrField(e, "peer_chat_addr") == AddrField(d, "peer_chat_addr");
    assert StrField(e, "text") == StrField(d, "text");
  }

  /** An object whose tag is none of the three never decodes. */
  lemma UnknownTagRejected(d: Doc)
    requires "method" in d && d["method"] != Str("ping") && d["method"] != Str("pong") && d["method"] != Str("message")
    ensures FromDoc(d) == None
  {
    assert StrField(d, "method") != Some("ping") && StrField(d, "method") != Some("pong");
    assert StrField(d, "method") != Some("message");
  }

  /** A read that returns no bytes is `ConnectionAborted`, never a request. */
  lemma EmptyReadAborts(cap: nat, json: Codec<Doc, byte>)
    ensures ReadReq(Received([]), cap, json) == Err(ConnectionAborted)
  {
  }

  /** Bytes past the first `cap` play no part in the result. */
  lemma ReadSeesOnlyCap(bytes: seq<byte>, cap: nat, json: Codec<Doc, byte>)
    requires |bytes| > cap
    ensures ReadReq(Received(bytes), cap, json) == ReadReq(Received(bytes[..cap]), cap, json)
  {
    assert bytes[..cap][..cap] == bytes[..cap];
  }

  /** Whatever a lawful serializer wrote, a read of at most `cap` bytes returns the request, provided it fits. */
  lemma WireRoundTrip(req: Request, json: Codec<Doc, byte>, cap: nat)
    requires Lawful(json)
    requires WriteReq(req, json, Done).Ok? && |WriteReq(req, json, Done).value| <= cap
    ensures ReadReq(Received(WriteReq(req, json, Done).value), cap, json) == Ok(req)
  {
    var bytes := WriteReq(req, json, Done).value;
    assert json.decode(bytes) == Some(ToDoc(req));
    assert bytes[..|bytes|] == bytes;
    DocRoundTrip(req);
  }

  /** A request whose encoding is longer than the buffer is cut short and then fails to decode. */
  lemma OversizedRequestInvalid(req: Request, json: Codec<Doc, byte>, cap: nat)
    requires Lawful(json) && 0 < cap
    requires WriteReq(req, json, Done).Ok? && |WriteReq(req, json, Done).value| > cap
    ensures ReadReq(Received(WriteReq(req, json, Done).value), cap, json) == Err(InvalidData)
  {
    var bytes := WriteReq(req, json, Done).value;
    assert json.encode(ToDoc(req)).value[..cap] == bytes[..cap];
  }
}

=== FILE: wrappers.dfy ===
/** Failure-carrying values shared by every module of the model. */
module Wrappers {

  /** A value that may be absent (Rust's `Option`). */
  datatype Option<+T> = None | Some(value: T)

  /** A value or an error (Rust's `Result`). */
  datatype Result<+T, +E> = Ok(value: T) | Err(error: E)
}
